=== FILE: README.md ===
# ifacetool auto-connections, modelled in Dafny

ifacetool is a command-line helper for checking how snapd would treat a set of
snaps. This project models three parts of it:

- **The `<snap>[@<rev>]` parameter type** (`snap_at_rev.dfy`). Text without
  an `@` is a bare snap name. Otherwise the text is split at its last `@`.
  The part after that `@` must be an integer greater than zero, or the
  parameter is refused. A value that was already converted passes through
  unchanged.
- **The Go simulation driver's scenario assembly** (`asserts_mock.dfy`,
  `simulation.dfy`):
  - the model headers and the optional store assertion;
  - one mock snap declaration per considered snap. The considered snaps are
    the context snaps plus the target, each name once, in order of first
    occurrence;
  - the registration of every considered snap's metadata;
  - the connect lines of the finished auto-connect change, sorted.

  Every modelled fatal `noerror` path is a `Failure` of the `Fatal` type;
  "## Left out" lists the fatal paths that are not modelled.
- **The Python post-processing of the driver's answer** (`report.dfy`):
  - the parameters planned for the driver;
  - the install section: every considered snap once, the target last, each
    with the outcome of its last install entry;
  - the connections, sorted by the `conn_key` order and printed as
    `snap:plug < slot` or `snap:slot > plug`;
  - the target's plugs that no connection uses.

`agreement.dfy` connects the two languages:
- the snaps the Python side prefetches are exactly those the driver declares;
- the Python install order is the driver's declaration order with the target
  moved to the end;
- the driver sets up a store exactly when the operation was given a non-empty
  store name.

Supporting modules:
- `Strings`: code-point string order, decimal text, `int()`, `str.split` with
  `maxsplit`, `str.rsplit`.
- `Seqs`: first-occurrence deduplication, and a generic "skip already seen,
  stop at first failure" loop.
- `Sorting`: one stable insertion sort, used both for Go's `sort.Strings` and
  for Python's `list.sort(key=...)`.

Deliberate choices:
- The model name is split with `model.split("/", 2)`. That yields up to three
  pieces, and unpacking them into `brand, model` fails unless the name holds
  exactly one `/`. `Report.SplitModel` models this code as written. A model
  name with two slashes therefore raises in the operation rather than keeping
  the rest of the name.
- Wall-clock timestamps enter as a `now` parameter. The assertion library's
  format suggestion enters as a function parameter `suggestFormat`. The
  finished auto-connect change enters as a `ChangeResult`. The snap
  directories enter as a map from name to what can be read in them.

## Model

| member | source | states |
|---|---|---|
| SnapAtRev.Convert | ifacetool.py:29-43 | A converted value passes through; text without `@` is a bare name; a success with a revision has revision > 0 and the text is name, `@`, and an `@`-free suffix that parses to that revision; a failure names the `@`-free suffix after the last `@`, which does not parse to a positive integer |
| SnapAtRev.ConvertText | ifacetool.py:33-43 | The same split at the last `@` and positive-integer check, for raw text |
| SnapAtRev.ConvertIdempotent | ifacetool.py:30-31 | Converting the result of a conversion gives the same result |
| SnapAtRev.LastAtOfPinned | ifacetool.py:33 | In `name@rev` with an `@`-free `rev`, the last `@` is the one after `name`, whatever `@` signs `name` holds |
| SnapAtRev.SplitAtLastAt | ifacetool.py:33-43 | For any name and `@`-free revision text, the outcome depends only on how the revision text parses: a positive integer pins the name to it, anything else is refused with that text |
| SnapAtRev.RoundTrip | ifacetool.py:37-41 | A name pinned to a positive revision written in decimal, within `int()`'s digit limit, converts back to that name and revision |
| SnapAtRev.TooLongRevisionFails | ifacetool.py:37-43 | A revision of more digits than `int()`'s limit is refused, naming that text and the whole value |
| SnapAtRev.TrailingAtFails | ifacetool.py:37-43 | A trailing `@` gives an empty revision text, which is refused |
| SnapAtRev.NonNumericRevisionFails | ifacetool.py:37-43 | A revision text with no digit is refused, naming that text and the whole value |
| SnapAtRev.ZeroRevisionFails | ifacetool.py:38-40 | Revision zero is refused however many zeros spell it |
| Strings.RSplitOnce | ifacetool.py:33 | One piece exactly when the separator is absent; otherwise two pieces joining back to the text, the second free of the separator |
| Strings.SplitMax | ops/simulation.py:26 | `min(count, maxsplit) + 1` pieces that join back to the text, every piece but the last free of the separator |
| Strings.ParseDecimal | ifacetool.py:38 | `int()` reads the decimal text of a natural number, within the digit limit, back as that number |
| Strings.ParseIntTooLong | ifacetool.py:38 | `int()` refuses digit text longer than its default limit of 4300 digits |
| AssertsMock.Overlay | engine/simulation.go:115-121 | Every key of either map is present, a caller's value wins on a shared key, and no other key appears |
| AssertsMock.MergeHeaders | engine/simulation.go:119-121 | Copying the caller's headers one key at a time, in any order, gives the overlay |
| AssertsMock.DeclarationHeaders | engine/simulation.go:115-125 | The declaration headers are series, timestamp, format and the caller's keys; the caller's values win except on `format`, which holds the decimal format number suggested for the merged headers |
| AssertsMock.StoreHeaders | engine/simulation.go:134-142 | The store headers are store, operator and timestamp overlaid with the caller's keys |
| Simulation.ModelHeaders | engine/simulation.go:335-342 | Authority and brand are the brand, model is the model name, and `store` is present exactly when a store is given |
| Simulation.StoreAssertion | engine/simulation.go:344-346 | A store assertion, naming the store and the signing authority as operator, exists exactly when a store is given |
| Simulation.ConsideredSnaps | engine/simulation.go:354-363 | The context snaps plus the target, each name once, in order of first occurrence, the target always among them |
| Seqs.Dedup | engine/simulation.go:356-363 | The result holds no duplicates and has exactly the input's elements |
| Seqs.DedupOrder | engine/simulation.go:356-363 | The deduplicated elements appear in the order of their first occurrence in the input |
| Seqs.MapFirstOccurrences | engine/simulation.go:356-380 | Walking the names, skipping seen ones and stopping at the first failure, fails exactly when some deduplicated name fails, with the first such failure; otherwise it maps every deduplicated name, in order |
| Simulation.DeclarationExtra | engine/simulation.go:364-378 | A missing reference record, or a rules file that exists but cannot be loaded, is fatal, checked in the order reference record, `plugs.json`, `slots.json`, and the error names the first that fails; otherwise the headers carry name, id and publisher, plus `plugs` / `slots` exactly when that file exists |
| Simulation.DeclareOne | engine/simulation.go:364-379 | One snap's declaration fails exactly when its extra headers cannot be assembled, with their error. Otherwise its keys are exactly series, timestamp, format, snap-name, snap-id and publisher-id, plus `plugs` / `slots` exactly when that file exists. Series is `16`, the timestamp is the time, name, id and publisher come from the reference record, and the rules are the loaded files |
| Simulation.DeclareSnaps | engine/simulation.go:354-380 | The declaration loop fails exactly when some considered snap's headers cannot be assembled, with the first such snap's error; otherwise it yields one declaration per considered snap, in order |
| Simulation.SnapIdentity | engine/simulation.go:261-272 | A found declaration gives the snap the first declaration and its id; not found leaves both unset; any other lookup error is fatal |
| Simulation.Manager | engine/simulation.go:224-227 | Initialising the interface manager succeeds exactly when it was not initialised before |
| Simulation.ManagerAtMostOnce | engine/simulation.go:224-233 | A second initialisation always fails |
| Simulation.ConnectLines | engine/simulation.go:412-421 | One `slot > plug` line per `connect` task, in task order: the `k`th line is that of the `k`th connect task, and other tasks give none |
| Report.DriverLineRoundTrip | engine/simulation.go:419 | A driver line reads back as the slot's snap and name, a `>`, and the plug reference, when the slot snap has no `:` and the slot name no space |
| Simulation.PrintedConnections | engine/simulation.go:412-425 | The printed connections are the connect lines, rearranged and in ascending order |
| Simulation.PrintedConnectionsDetermined | engine/simulation.go:422 | Any ascending arrangement of the connect lines is the printed one |
| Strings.SortedStringsUnique | engine/simulation.go:422 | Two ascending arrangements of the same strings are equal |
| Simulation.RegisterSnaps | engine/simulation.go:383-393 | Registration, in any order, fails exactly when some seen snap has no readable `snap.yaml`, naming a snap whose `snap.yaml` cannot be read; otherwise every seen snap is registered |
| Simulation.SimulateAutoConnect | engine/simulation.go:334-425 | A run fails exactly when a declaration or metadata file cannot be read, or the change failed, in that order of precedence. A declaration failure is that of the first considered snap whose declaration cannot be assembled. With every declaration readable, a missing `snap.yaml` fails with that error, naming a considered snap whose `snap.yaml` cannot be read. Otherwise the model and store headers are those built from the parameters, every considered snap gets its declaration, in order, and is registered, and the printed connections are the sorted connect lines |
| Sorting.SortBy | ops/simulation.py:76 | The sort result is ordered and a permutation, and elements with equal keys keep their input order |
| Report.ToConsider | ops/simulation.py:22 | The prefetched names are the context snaps and the target |
| Report.SplitModel | ops/simulation.py:26 | Unpacking succeeds exactly when the name holds one `/`; then brand, `/` and model rebuild the name and neither part holds `/` |
| Report.ModelRoundTrip | ops/simulation.py:26 | A brand and model without `/`, joined by `/`, split back into both |
| Report.PlanEngineParams | ops/simulation.py:26-34 | The parameters carry the split model, the target and the context as given, and the store exactly when a non-empty one was given |
| Report.InstallIndexLastWins | ops/simulation.py:38-40 | The install dictionary has a key for each entry's name and no other; a repeated name maps to its last entry |
| Report.InstallOrder | ops/simulation.py:41-60 | The install order lists the context snaps other than the target, each once, in first-occurrence order, then the target |
| Report.InstallBlockOf | ops/simulation.py:48-54 | A snap's block carries its name and its bad interfaces, and its result is `OK` when the entry's error is empty and the error text otherwise |
| Report.InstallReport | ops/simulation.py:43-60 | One block per name, in order, when every name has an entry; otherwise it fails naming the first name without one |
| Report.InstallOrderCovered | ops/simulation.py:56-60 | Every name in the install order has an entry exactly when every context snap and the target do |
| Report.MissingEntryNamed | ops/simulation.py:47 | A `KeyError` names a considered snap that no install entry is for |
| Report.InstallSection | ops/simulation.py:37-60 | The install section fails exactly when a considered snap has no entry, naming the first such snap in print order, as `KeyError` does; otherwise every considered snap gets one block, target last, with the outcome of its last entry (`OK` for no error) |
| Report.Rank | ops/simulation.py:67-74 | The group is 0 when both ends are on the target, 1 when only the slot is, else 2 |
| Report.KeyOf | ops/simulation.py:67-74 | Groups 0 and 1 order by plug snap, plug and slot; group 2 by slot snap, slot and plug |
| Report.KeyLeTransitive | ops/simulation.py:67-76 | The tuple order on keys is transitive |
| Report.ConnLeIsTotalPreorder | ops/simulation.py:67-76 | The key order relates every pair of connections and chains, so it is a valid sort key |
| Report.SortConnections | ops/simulation.py:76 | The sorted connections are a permutation in key order: groups ascending, then snap names; connections with equal keys keep the driver's order |
| Report.ConnLineRoundTrip | ops/simulation.py:80-89 | If the other snap's name has no `:` and its plug or slot name has no space, a printed line reads back as the other end, the direction and the target's end |
| Report.RenderConnections | ops/simulation.py:93-94 | One line per connection, in order |
| Report.RenderedConnected | ops/simulation.py:77-94 | The sets filled while printing are the target plugs and slots that some connection uses |
| Report.NullConnectionsAsEmpty | ops/simulation.py:63-65 | A `null` connection list gives the same report as an empty one |
| Report.ConnectionSection | ops/simulation.py:62-94 | The connection lines follow the key order, and the connected plugs do not depend on the order the driver reported |
| Report.Dangling | ops/simulation.py:96-103 | The dangling names are those of the unconnected plugs, in the driver's order, repeats kept: the `k`th name is that of the `k`th plug no connection uses; so a name is listed exactly when some reported plug has it and no connection uses it |
| Report.NullPlugsAsEmpty | ops/simulation.py:97-99 | A `null` plug list gives the same report as an empty one |
| Report.AutoConnectionsReport | ops/simulation.py:37-103 | The report after the driver has answered fails exactly when a considered snap has no install entry, naming the first such snap in print order. Otherwise it gives the install blocks in order, one line per connection in key order, and the unconnected target plugs in the driver's order |
| Agreement.PlannedStoreAgrees | ops/simulation.py:26-34 | From planned parameters, the driver makes a store assertion and a model `store` header exactly when the operation got a non-empty store; brand and model rebuild the model argument |
| Agreement.PrefetchCoversDeclared | ops/simulation.py:22-25 | The snaps the operation prefetches are exactly the snaps the driver declares |
| Agreement.InstallOrderIsConsideredTargetLast | ops/simulation.py:56-60 | The report's install order is the driver's declaration order with the target moved to the end |

## Left out

- snapd's installation policy, interface matching, auto-connect decisions
  and task engine are not modelled. The finished change is an input, so the
  set of connections it produces is not derived.
- Assertion signing, the assertion database, account creation and the
  trust store are not modelled. So are the fixed model defaults of
  `mockModel` (series, architecture) and the `FakeAssertion` defaults.
  Only the header maps the driver builds are modelled.
- Reading files, decoding JSON and YAML, and parsing `snap.yaml` are not
  modelled. A snap directory is given as what can be read from it.
- Timestamps and `asserts.SuggestFormat` are parameters, because they are a
  clock and a foreign call.
- Simulation.SimulateAutoConnect: the driver reads the clock separately for
  the model (engine/simulation.go:96), for each declaration (:117) and for
  the store assertion (:138), each to one-second resolution. The model
  takes one reading, `now`, for all of them. A run that crosses a second
  boundary can give its assertions different timestamps, which the model
  does not cover.
- AssertsMock.Json: the driver decodes `plugs.json` and `slots.json` with
  `json.Unmarshal` into `map[string]interface{}` (engine/simulation.go:428-436),
  which turns every number into a float64: `1` and `1.0` become equal and
  integers beyond 2^53 are rounded. The model keeps each number's literal
  text. No contract looks inside the rules, so nothing stated depends on it.
- Simulation.SimulateAutoConnect: the interface manager is initialised
  before the declarations in the source; the run takes the manager as ready.
  `Simulation.Manager` models its guard separately.
- Simulation.SimulateAutoConnect: the `snapd` snap mocked before the manager
  starts (engine/simulation.go:348-349) is not modelled. Its declaration
  lookup could also be fatal, so the model does not include that failure.
- Simulation.SimulateAutoConnect: the declaration lookup that `mockSnap`
  makes for each registered snap is a query of the assertion database,
  which is not modelled. `Simulation.SnapIdentity` models the outcome of
  one lookup, but the run does not include its fatal case. `checkInstall`
  and its printed lines are not modelled, because they evaluate snapd's
  installation policy. Only the set of registered names is kept.
- Simulation.SimulateAutoConnect: fatal paths inside code that is not
  modelled are not `Failure`s of the model:
  - an error from `asserts.SuggestFormat` (`suggestFormat` is a total
    function here);
  - the account lookup and add, signing and adding assertions
    (engine/simulation.go:104-113, 127-131, 143-148);
  - manager and hook-manager start-up;
  - writing and parsing the mocked snap on disk;
  - `AddSnap`;
  - `se.Ensure`.
- Simulation.RegisterSnaps: Go's map iteration order is unspecified, so only
  the set of names and the failure condition are stated, not which failing
  snap comes first. The failure does name a snap without a readable
  `snap.yaml`.
- Simulation.RegisterSnaps: `Outcome.registered` is the set of directory
  names visited. Go registers each snap under the name its `snap.yaml`
  gives (`RealName` from `SnapName()`, then `snapstate.Set` and `AddSnap`,
  engine/simulation.go:259, 278, 391). The model does not parse `snap.yaml`,
  so that name, and any mismatch with the directory name, are not modelled.
- Simulation.ConnectLine: the `snap:name` text of snapd's plug and slot
  references is assumed, since snapd is not part of this model.
- Strings.ParseInt: Python's `int()` also accepts surrounding whitespace,
  underscores between digits and non-ASCII digits. Only an optional sign
  followed by ASCII digits is modelled. The 4300-digit limit is the default
  of current Python releases. Interpreters without the limit, or with a
  different `PYTHONINTMAXSTRDIGITS` setting, accept longer revisions, and
  the model does not cover them.
- Report.InstallSection: the install blocks printed before a `KeyError` are
  not modelled. A failure is a failure of the whole report.
- Report.InstallBlockOf: the `bad-interfaces` line prints the dictionary's
  Python `repr`. The block holds the dictionary itself, not its text.
- The `connected_slots` set is filled but never read by the operation. It is
  modelled (`Report.RenderedConnected`) but feeds nothing.
- The subprocess bridge that runs the driver, the snap-identity fetcher, the
  command-line wiring and the other operations of ifacetool are outside the
  core and not modelled.

=== FILE: agreement.dfy ===
/**
  How the Python operation and the Go driver fit together: the parameters the
  operation plans arrive at the driver as its JSON parameters, and the two
  sides then agree on which snaps are considered, in which order the report
  lists them, and whether a store is set up.
*/
module Agreement {
  import opened Wrappers
  import Seqs
  import opened Simulation
  import opened Report
  import opened AssertsMock

  /**
    The driver's decoding of the keyword arguments into its parameters
    record: an absent `store` key leaves the field empty.
  */
  function Decode(e: EngineParams): (p: Params)
    ensures p.brand == e.brand && p.model == e.model
    ensures p.targetSnap == e.targetSnap && p.snaps == e.snaps
    ensures e.store.None? ==> p.store == ""
    ensures e.store.Some? ==> p.store == e.store.value
  {
    Params(e.brand, e.model, if e.store.Some? then e.store.value else "", e.targetSnap, e.snaps)
  }

  /**
    The driver sets up a store, and names it in the model, exactly when the
    operation was given a non-empty store name; the model's brand and name
    put back together give the operation's model argument.
  */
  lemma PlannedStoreAgrees(target: string, context: seq<string>, model: string, store: Option<string>, now: string)
    requires PlanEngineParams(target, context, model, store).Success?
    ensures var p := Decode(PlanEngineParams(target, context, model, store).value);
      && (StoreAssertion(p, now).Some? <==> store.Some? && store.value != "")
      && ("store" in ModelHeaders(p) <==> store.Some? && store.value != "")
      && (store.Some? && store.value != "" ==> ModelHeaders(p)["store"] == Text(store.value))
      && p.brand + "/" + p.model == model
  {
  }

  /**
    The snaps whose identities the operation prefetches are exactly the
    snaps the driver declares.
  */
  lemma PrefetchCoversDeclared(target: string, context: seq<string>, model: string, store: Option<string>)
    requires PlanEngineParams(target, context, model, store).Success?
    ensures var p := Decode(PlanEngineParams(target, context, model, store).value);
      forall n :: n in ToConsider(context, target) <==> n in ConsideredSnaps(p)
  {
  }

  /** Dropping the last element of `s + [x]` when it is `x`. */
  lemma WithoutAppended(s: seq<string>, x: string)
    ensures Seqs.Without(s + [x], x) == Seqs.Without(s, x)
  {
    assert (s + [x])[..|s|] == s;
  }

  /**
    The report lists the snaps the driver declares, in the driver's order,
    except that the target moves to the end.
  */
  lemma InstallOrderIsConsideredTargetLast(target: string, context: seq<string>, model: string, store: Option<string>)
    requires PlanEngineParams(target, context, model, store).Success?
    ensures var p := Decode(PlanEngineParams(target, context, model, store).value);
      InstallOrder(context, target) == Seqs.Without(ConsideredSnaps(p), target) + [target]
  {
    var p := Decode(PlanEngineParams(target, context, model, store).value);
    var order := InstallOrder(context, target);
    Seqs.DedupWithout(context + [target], target);
    WithoutAppended(context, target);
    Seqs.DedupWithout(context, target);
    assert Seqs.Without(ConsideredSnaps(p), target) == Seqs.Without(Seqs.Dedup(context), target);
    assert order == order[..|order| - 1] + [target];
  }
}

=== FILE: asserts_mock.dfy ===
/**
  The header maps from which the simulation driver has its mock assertions
  signed: snap declarations and the store. Signing, the assertion database
  and the trust store are not part of this model; only the headers are.
*/
module AssertsMock {
  import opened Strings

  /**
    A JSON value from a rules file. Numbers keep their literal text; this is
    a modelling choice, since Go's decoder turns every number into a float64.
  */
  datatype Json =
    | Null
    | Bool(b: bool)
    | Number(literal: string)
    | Str(s: string)
    | Array(items: seq<Json>)
    | Object(members: map<string, Json>)

  /** A header value: text, or a rules document loaded from `plugs.json` / `slots.json`. */
  datatype HeaderValue = Text(text: string) | Rules(rules: map<string, Json>)

  type Headers = map<string, HeaderValue>

  /** The series every mock assertion is signed for. */
  const Series := "16"

  /**
    `defaults` with every entry of `extra` written over it. Every key of
    either map is present, an `extra` value wins on a shared key, and no
    other key appears.
  */
  function Overlay(defaults: Headers, extra: Headers): (h: Headers)
    ensures h.Keys == defaults.Keys + extra.Keys
    ensures forall k :: k in extra ==> h[k] == extra[k]
    ensures forall k :: k in defaults && k !in extra ==> h[k] == defaults[k]
  {
    defaults + extra
  }

  /**
    The `for k, v := range extraHeaders { headers[k] = v }` loop: the keys of
    `extra` are visited in an unspecified order, and the outcome is the same
    overlay whatever that order is.
  */
  method MergeHeaders(defaults: Headers, extra: Headers) returns (headers: Headers)
    ensures headers == Overlay(defaults, extra)
  {
    headers := defaults;
    var pending := extra.Keys;
    while pending != {}
      invariant pending <= extra.Keys
      invariant headers.Keys == defaults.Keys + (extra.Keys - pending)
      invariant forall k :: k in extra && k !in pending ==> headers[k] == extra[k]
      invariant forall k :: k in defaults && (k !in extra || k in pending) ==> headers[k] == defaults[k]
      decreases pending
    {
      var k :| k in pending;
      headers := headers[k := extra[k]];
      pending := pending - {k};
    }
  }

  /** The headers `mockSnapDecl` starts from before the caller's headers go over them. */
  function DeclarationDefaults(now: string): Headers
  {
    map["series" := Text(Series), "timestamp" := Text(now)]
  }

  /**
    The headers of a mock snap declaration: the defaults overlaid with the
    caller's `extra` headers, then `format` set to the decimal text of the
    format number the assertion library suggests for those headers.
  */
  function DeclarationHeaders(extra: Headers, now: string, suggestFormat: Headers -> nat): (h: Headers)
    ensures h.Keys == {"series", "timestamp", "format"} + extra.Keys
    ensures forall k :: k in extra && k != "format" ==> h[k] == extra[k]
    ensures "series" !in extra ==> h["series"] == Text(Series)
    ensures "timestamp" !in extra ==> h["timestamp"] == Text(now)
    ensures h["format"] == Text(Decimal(suggestFormat(Overlay(DeclarationDefaults(now), extra))))
  {
    var headers := Overlay(DeclarationDefaults(now), extra);
    headers["format" := Text(Decimal(suggestFormat(headers)))]
  }

  /**
    The headers of the mock store assertion: the store id, the signing
    authority as operator and the time, overlaid with `extra`.
  */
  function StoreHeaders(storeId: string, operatorId: string, now: string, extra: Headers): (h: Headers)
    ensures h.Keys == {"store", "operator-id", "timestamp"} + extra.Keys
    ensures forall k :: k in extra ==> h[k] == extra[k]
    ensures "store" !in extra ==> h["store"] == Text(storeId)
    ensures "operator-id" !in extra ==> h["operator-id"] == Text(operatorId)
  {
    Overlay(map["store" := Text(storeId), "operator-id" := Text(operatorId), "timestamp" := Text(now)], extra)
  }
}

=== FILE: report.dfy ===
/**
  The `auto-connections` operation of ifacetool as the user sees it: the
  parameters handed to the Go driver, and the report printed from the
  driver's JSON answer — the install outcome of every snap considered, the
  auto-connections of the target snap in a fixed order, and the target's
  plugs that nothing connected.
*/
module Report {
  import opened Wrappers
  import opened Strings
  import Seqs
  import Sorting
  import opened Simulation

  // ------------------------------------------------------------ parameters

  /** Why the operation stops with a Python exception. */
  datatype ReportError =
    | BadModel(model: string)             // `brand, model = ...` unpacks a wrong number of pieces
    | MissingInstallEntry(snap: string)   // `installing[name]` raises `KeyError`

  /** The keyword arguments handed to the driver; `store` only when one was given. */
  datatype EngineParams = EngineParams(
    brand: string, model: string, targetSnap: string, snaps: seq<string>, store: Option<string>)

  /** The snaps whose identities are prefetched: the context snaps and the target. */
  function ToConsider(context: seq<string>, target: string): (names: set<string>)
    ensures forall n :: n in names <==> n in context || n == target
  {
    (set n | n in context) + {target}
  }

  /**
    `brand, model = model.split("/", 2)`: the split yields up to three
    pieces, and unpacking into two names only succeeds when the text holds
    exactly one `/`.
  */
  function SplitModel(m: string): (r: Result<(string, string), ReportError>)
    ensures r.Success? <==> Count(m, '/') == 1
    ensures r.Success? ==> r.value.0 + "/" + r.value.1 == m
    ensures r.Success? ==> '/' !in r.value.0 && '/' !in r.value.1
    ensures r.Failure? ==> r.error == BadModel(m)
  {
    var parts := SplitMax(m, '/', 2);
    if |parts| == 2 then
      assert Join(parts[1..], '/') == parts[1];
      CountAppend(parts[0] + "/", parts[1], '/');
      CountAppend(parts[0], "/", '/');
      CountPresent(parts[1], '/');
      Success((parts[0], parts[1]))
    else Failure(BadModel(m))
  }

  /** A brand and a model without `/` joined by one `/` split back into both. */
  lemma ModelRoundTrip(brand: string, model: string)
    requires '/' !in brand && '/' !in model
    ensures SplitModel(brand + "/" + model) == Success((brand, model))
  {
    var m := brand + "/" + model;
    CountAppend(brand + "/", model, '/');
    CountAppend(brand, "/", '/');
    CountAbsent(brand, '/');
    CountAbsent(model, '/');
    var r := SplitModel(m);
    SplitAtSepUnique(r.value.0, r.value.1, brand, model, '/');
  }

  /**
    The driver parameters: the model name split into brand and model, the
    target and the context snaps as given, and the store only when the
    option is set to a non-empty name.
  */
  function PlanEngineParams(target: string, context: seq<string>, model: string, store: Option<string>)
    : (r: Result<EngineParams, ReportError>)
    ensures r.Success? <==> Count(model, '/') == 1
    ensures r.Failure? ==> r.error == BadModel(model)
    ensures r.Success? ==>
      && r.value.brand + "/" + r.value.model == model
      && '/' !in r.value.brand
      && r.value.targetSnap == target
      && r.value.snaps == context
    ensures r.Success? ==> (r.value.store.Some? <==> store.Some? && store.value != "")
    ensures r.Success? && r.value.store.Some? ==> r.value.store == store
  {
    var (brand, name) :- SplitModel(model);
    var passed := if store.Some? && store.value != "" then store else None;
    Success(EngineParams(brand, name, target, context, passed))
  }

  // ---------------------------------------------------------- driver output

  /** One entry of the driver's `installing` list; a missing `bad-interfaces` is empty. */
  datatype InstallEntry = InstallEntry(snapName: string, error: string, badInterfaces: map<string, string>)

  /** One connection the driver reports, with which of its ends are on the target snap. */
  datatype Connection = Connection(iface: string, plug: PlugRef, slot: SlotRef, onTarget: seq<string>)

  /** A plug of the target snap, of which the report uses the name. */
  datatype PlugInfo = PlugInfo(iface: string, name: string)

  /** The driver's JSON answer; `null` lists are `None`. */
  datatype EngineOutput = EngineOutput(
    installing: seq<InstallEntry>, connections: Option<seq<Connection>>, plugs: Option<seq<PlugInfo>>)

  // ------------------------------------------------------------- installing

  /** The `installing` dictionary: each entry stored under its snap name, in list order. */
  function InstallIndex(entries: seq<InstallEntry>): map<string, InstallEntry>
    decreases |entries|
  {
    if |entries| == 0 then map[]
    else
      var e := entries[|entries| - 1];
      InstallIndex(entries[..|entries| - 1])[e.snapName := e]
  }

  /** Entry `i` is the last entry of `entries` named `n`. */
  predicate LastNamed(entries: seq<InstallEntry>, i: int, n: string)
  {
    && 0 <= i < |entries|
    && entries[i].snapName == n
    && forall j :: i < j < |entries| ==> entries[j].snapName != n
  }

  /**
    The dictionary has a key for every entry's name and no other; when a
    name appears more than once, the last entry with that name is kept.
  */
  lemma {:induction false} InstallIndexLastWins(entries: seq<InstallEntry>, n: string)
    ensures n in InstallIndex(entries) <==> exists i :: 0 <= i < |entries| && entries[i].snapName == n
    ensures n in InstallIndex(entries) ==>
      exists i :: LastNamed(entries, i, n) && InstallIndex(entries)[n] == entries[i]
    decreases |entries|
  {
    if |entries| > 0 {
      var init := entries[..|entries| - 1];
      var last := |entries| - 1;
      InstallIndexLastWins(init, n);
      assert forall i :: 0 <= i < |init| ==> init[i] == entries[i];
      if entries[last].snapName == n {
        assert LastNamed(entries, last, n);
      } else if n in InstallIndex(init) {
        var i :| LastNamed(init, i, n) && InstallIndex(init)[n] == init[i];
        assert LastNamed(entries, i, n);
      }
    }
  }

  /**
    The names the report covers, in print order: the context snaps other
    than the target, then the target; a name already printed is skipped.
  */
  function InstallOrder(context: seq<string>, target: string): (order: seq<string>)
    ensures Seqs.NoDups(order)
    ensures forall n :: n in order <==> n in context || n == target
    ensures |order| > 0 && order[|order| - 1] == target
    ensures order[..|order| - 1] == Seqs.Without(Seqs.Dedup(context), target)
    ensures Seqs.InFirstOccurrenceOrder(order[..|order| - 1], context)
  {
    var others := Seqs.Without(context, target);
    Seqs.DedupAppendNew(others, target);
    Seqs.DedupWithout(context, target);
    Seqs.DedupOrder(context);
    Seqs.WithoutKeepsOrder(Seqs.Dedup(context), target, context);
    var order := Seqs.Dedup(others + [target]);
    assert order[..|order| - 1] == Seqs.Dedup(others);
    order
  }

  /** What `prinst` prints for one snap: its name, its result, its bad interfaces. */
  datatype InstallBlock = InstallBlock(name: string, result: string, badInterfaces: map<string, string>)

  /** The block of one name: the result is `OK` when the entry has no error. */
  function InstallBlockOf(name: string, e: InstallEntry): (b: InstallBlock)
    ensures b.name == name && b.badInterfaces == e.badInterfaces
    ensures e.error == "" ==> b.result == "OK"
    ensures e.error != "" ==> b.result == e.error
  {
    InstallBlock(name, if e.error == "" then "OK" else e.error, e.badInterfaces)
  }

  /**
    The install blocks of the names in `order`, one per name and in that
    order; the first name without an entry raises `KeyError`.
  */
  function InstallReport(order: seq<string>, index: map<string, InstallEntry>)
    : (r: Result<seq<InstallBlock>, ReportError>)
    ensures r.Success? <==> forall i :: 0 <= i < |order| ==> order[i] in index
    ensures r.Failure? ==>
      exists k :: 0 <= k < |order| && r.error == MissingInstallEntry(order[k]) && order[k] !in index &&
        forall i :: 0 <= i < k ==> order[i] in index
    ensures r.Success? ==> |r.value| == |order|
    ensures r.Success? ==> forall i :: 0 <= i < |order| ==>
      r.value[i].name == order[i] && r.value[i] == InstallBlockOf(order[i], index[order[i]])
    decreases |order|
  {
    if |order| == 0 then Success([])
    else if order[0] !in index then Failure(MissingInstallEntry(order[0]))
    else
      match InstallReport(order[1..], index)
      case Failure(e) =>
        assert forall i :: 1 <= i < |order| ==> order[i] == order[1..][i - 1];
        Failure(e)
      case Success(rest) =>
        Success([InstallBlockOf(order[0], index[order[0]])] + rest)
  }

  // ------------------------------------------------------------ connections

  /** The ends of a connection that lie on the target snap. */
  function OnTarget(c: Connection): set<string>
  {
    set x | x in c.onTarget
  }

  /**
    The group a connection is listed in: 0 when both ends are on the target,
    1 when only the slot is, 2 otherwise.
  */
  function Rank(c: Connection): (rank: nat)
    ensures rank <= 2
    ensures rank == 0 <==> OnTarget(c) == {"plug", "slot"}
    ensures rank == 1 <==> OnTarget(c) == {"slot"}
  {
    if OnTarget(c) == {"plug", "slot"} then 0
    else if OnTarget(c) == {"slot"} then 1
    else 2
  }

  /** The sort key `conn_key`: the group, then three names compared in order. */
  datatype ConnKey = ConnKey(rank: nat, first: string, second: string, third: string)

  /**
    Connections with the slot on the target are ordered by plug snap, plug,
    slot; the others by slot snap, slot, plug.
  */
  function KeyOf(c: Connection): (k: ConnKey)
    ensures k.rank == Rank(c)
    ensures k.rank < 2 ==> (k.first, k.second, k.third) == (c.plug.snap, c.plug.name, c.slot.name)
    ensures k.rank == 2 ==> (k.first, k.second, k.third) == (c.slot.snap, c.slot.name, c.plug.name)
  {
    match Rank(c)
    case 0 => ConnKey(0, c.plug.snap, c.plug.name, c.slot.name)
    case 1 => ConnKey(1, c.plug.snap, c.plug.name, c.slot.name)
    case _ => ConnKey(2, c.slot.snap, c.slot.name, c.plug.name)
  }

  /** Python's tuple order on keys: the first differing field decides. */
  predicate KeyLe(a: ConnKey, b: ConnKey)
  {
    if a.rank != b.rank then a.rank < b.rank
    else if a.first != b.first then StrLe(a.first, b.first)
    else if a.second != b.second then StrLe(a.second, b.second)
    else StrLe(a.third, b.third)
  }

  predicate ConnLe(c: Connection, d: Connection)
  {
    KeyLe(KeyOf(c), KeyOf(d))
  }

  lemma StrOrderFacts(x: string, y: string, z: string)
    ensures StrLe(x, y) || StrLe(y, x)
    ensures StrLe(x, y) && StrLe(y, z) ==> StrLe(x, z)
    ensures StrLe(x, y) && StrLe(y, x) ==> x == y
    ensures StrLe(x, z) && StrLe(z, x) ==> x == z
  {
    StrLeTotal(x, y);
    if StrLe(x, y) && StrLe(y, z) {
      StrLeTransitive(x, y, z);
    }
    if StrLe(x, y) && StrLe(y, x) {
      StrLeAntisymmetric(x, y);
    }
    if StrLe(x, z) && StrLe(z, x) {
      StrLeAntisymmetric(x, z);
    }
  }

  lemma KeyLeTransitive(a: ConnKey, b: ConnKey, c: ConnKey)
    requires KeyLe(a, b) && KeyLe(b, c)
    ensures KeyLe(a, c)
  {
    StrOrderFacts(a.first, b.first, c.first);
    StrOrderFacts(a.second, b.second, c.second);
    StrOrderFacts(a.third, b.third, c.third);
  }

  /** The key order is a valid sort comparator. */
  lemma ConnLeIsTotalPreorder()
    ensures Sorting.TotalPreorder(ConnLe)
  {
    forall c, d
      ensures ConnLe(c, d) || ConnLe(d, c)
    {
      var a, b := KeyOf(c), KeyOf(d);
      StrOrderFacts(a.first, b.first, b.first);
      StrOrderFacts(a.second, b.second, b.second);
      StrOrderFacts(a.third, b.third, b.third);
    }
    forall c, d, e | ConnLe(c, d) && ConnLe(d, e)
      ensures ConnLe(c, e)
    {
      KeyLeTransitive(KeyOf(c), KeyOf(d), KeyOf(e));
    }
  }

  /**
    `conns.sort(key=conn_key)`: the same connections, those with both ends
    on the target first, then those with only the slot on it, then the
    rest; each group ordered by its three names, and connections with equal
    keys left in the driver's order.
  */
  function SortConnections(conns: seq<Connection>): (r: seq<Connection>)
    ensures |r| == |conns| && multiset(r) == multiset(conns)
    ensures Sorting.SortedBy(r, ConnLe)
    ensures forall i, j :: 0 <= i < j < |r| ==> Rank(r[i]) <= Rank(r[j])
    ensures forall i, j :: 0 <= i < j < |r| && Rank(r[i]) == Rank(r[j]) < 2 && r[i].plug.snap != r[j].plug.snap ==>
      StrLe(r[i].plug.snap, r[j].plug.snap)
    ensures forall i, j :: 0 <= i < j < |r| && Rank(r[i]) == Rank(r[j]) == 2 && r[i].slot.snap != r[j].slot.snap ==>
      StrLe(r[i].slot.snap, r[j].slot.snap)
    ensures forall c :: Sorting.Ties(r, c, ConnLe) == Sorting.Ties(conns, c, ConnLe)
  {
    ConnLeIsTotalPreorder();
    var r := Sorting.SortBy(conns, ConnLe);
    assert |r| == |multiset(r)| == |multiset(conns)| == |conns|;
    assert forall i, j :: 0 <= i < j < |r| ==> KeyLe(KeyOf(r[i]), KeyOf(r[j]));
    r
  }

  /**
    The line `prconn` prints: from the target's slot, `plugsnap:plug < slot`;
    otherwise `slotsnap:slot > plug`.
  */
  function ConnLine(c: Connection): string
  {
    if "slot" in c.onTarget then RefText(c.plug.snap, c.plug.name) + " < " + c.slot.name
    else RefText(c.slot.snap, c.slot.name) + " > " + c.plug.name
  }

  /** What a connection line tells: the other snap's end, the direction, the target's end. */
  datatype LineView = LineView(peerSnap: string, peerName: string, arrow: char, targetName: string)

  /** The reading of a connection line; the inverse of `ConnLine`. */
  function ParseConnLine(line: string): Option<LineView>
  {
    match IndexOf(line, ':')
    case None => None
    case Some(i) =>
      match ParseEnds(line[i + 1..])
      case None => None
      case Some((peerName, arrow, targetName)) => Some(LineView(line[..i], peerName, arrow, targetName))
  }

  /** The part of a connection line after the `:`: a name, an arrow between spaces, a name. */
  function ParseEnds(rest: string): Option<(string, char, string)>
  {
    match IndexOf(rest, ' ')
    case None => None
    case Some(j) =>
      var tail := rest[j..];
      if |tail| >= 3 && tail[0] == ' ' && (tail[1] == '<' || tail[1] == '>') && tail[2] == ' '
      then Some((rest[..j], tail[1], tail[3..]))
      else None
  }

  /** The view a connection's line should give back. */
  function ViewOf(c: Connection): LineView
  {
    if "slot" in c.onTarget then LineView(c.plug.snap, c.plug.name, '<', c.slot.name)
    else LineView(c.slot.snap, c.slot.name, '>', c.plug.name)
  }

  lemma ParseEndsParts(peerName: string, arrow: char, targetName: string)
    requires ' ' !in peerName && (arrow == '<' || arrow == '>')
    ensures ParseEnds(peerName + " " + [arrow] + " " + targetName) == Some((peerName, arrow, targetName))
  {
    var tail := [arrow, ' '] + targetName;
    var rest := peerName + [' '] + tail;
    assert rest == peerName + " " + [arrow] + " " + targetName;
    IndexOfAfter(peerName, ' ', tail);
    assert rest[|peerName|..] == [' '] + tail;
    assert rest[..|peerName|] == peerName;
  }

  /** A line of the connection-line shape reads back as its four parts. */
  lemma ParseLineParts(peerSnap: string, peerName: string, arrow: char, targetName: string)
    requires ':' !in peerSnap && ' ' !in peerName && (arrow == '<' || arrow == '>')
    ensures ParseConnLine(peerSnap + ":" + peerName + " " + [arrow] + " " + targetName)
      == Some(LineView(peerSnap, peerName, arrow, targetName))
  {
    var rest := peerName + " " + [arrow] + " " + targetName;
    var line := peerSnap + [':'] + rest;
    assert line == peerSnap + ":" + peerName + " " + [arrow] + " " + targetName;
    IndexOfAfter(peerSnap, ':', rest);
    assert line[|peerSnap| + 1..] == rest;
    assert line[..|peerSnap|] == peerSnap;
    ParseEndsParts(peerName, arrow, targetName);
  }

  /**
    Connection lines are unambiguous: when the other snap's name has no `:`
    and its plug or slot name no space, the line reads back as the
    connection's ends and direction.
  */
  lemma ConnLineRoundTrip(c: Connection)
    requires ':' !in ViewOf(c).peerSnap && ' ' !in ViewOf(c).peerName
    ensures ParseConnLine(ConnLine(c)) == Some(ViewOf(c))
  {
    var v := ViewOf(c);
    assert ConnLine(c) == v.peerSnap + ":" + v.peerName + " " + [v.arrow] + " " + v.targetName;
    ParseLineParts(v.peerSnap, v.peerName, v.arrow, v.targetName);
  }

  /**
    The driver's own `slot > plug` lines have the same shape: with a slot
    snap free of `:` and a slot name free of spaces, such a line reads back as
    the slot's end, a `>`, and the plug reference.
  */
  lemma DriverLineRoundTrip(t: Task)
    requires ':' !in t.slot.snap && ' ' !in t.slot.name
    ensures ParseConnLine(ConnectLine(t)) ==
      Some(LineView(t.slot.snap, t.slot.name, '>', RefText(t.plug.snap, t.plug.name)))
  {
    var plug := RefText(t.plug.snap, t.plug.name);
    assert ConnectLine(t) == t.slot.snap + ":" + t.slot.name + " " + ['>'] + " " + plug;
    ParseLineParts(t.slot.snap, t.slot.name, '>', plug);
  }

  /** The plugs of the target that a connection in `conns` uses. */
  function PlugsConnectedIn(conns: seq<Connection>): set<string>
  {
    set c | c in conns && "plug" in c.onTarget :: c.plug.name
  }

  /** The slots of the target that a connection in `conns` uses. */
  function SlotsConnectedIn(conns: seq<Connection>): set<string>
  {
    set c | c in conns && "slot" in c.onTarget :: c.slot.name
  }

  /** The printed lines and the two sets `prconn` fills in. */
  datatype Rendered = Rendered(lines: seq<string>, connectedPlugs: set<string>, connectedSlots: set<string>)

  /**
    The `for conn in conns: prconn(conn)` loop: one line per connection, in
    order, while collecting the target's connected plugs and slots.
  */
  function RenderConnections(conns: seq<Connection>): (out: Rendered)
    ensures |out.lines| == |conns|
    ensures forall i :: 0 <= i < |conns| ==> out.lines[i] == ConnLine(conns[i])
    decreases |conns|
  {
    if |conns| == 0 then Rendered([], {}, {})
    else
      var init := conns[..|conns| - 1];
      var c := conns[|conns| - 1];
      var prev := RenderConnections(init);
      var lines := prev.lines + [ConnLine(c)];
      assert forall i :: 0 <= i < |init| ==> lines[i] == prev.lines[i] && conns[i] == init[i];
      Rendered(
        lines,
        prev.connectedPlugs + (if "plug" in c.onTarget then {c.plug.name} else {}),
        prev.connectedSlots + (if "slot" in c.onTarget then {c.slot.name} else {}))
  }

  /** The sets `prconn` fills in are the target's plugs and slots some connection uses. */
  lemma {:induction false} RenderedConnected(conns: seq<Connection>)
    ensures RenderConnections(conns).connectedPlugs == PlugsConnectedIn(conns)
    ensures RenderConnections(conns).connectedSlots == SlotsConnectedIn(conns)
    decreases |conns|
  {
    if |conns| > 0 {
      var init := conns[..|conns| - 1];
      var c := conns[|conns| - 1];
      RenderedConnected(init);
      assert conns == init + [c];
      ConnectedSnoc(init, c);
    }
  }

  /** One more connection adds its target ends to the connected sets. */
  lemma ConnectedSnoc(init: seq<Connection>, c: Connection)
    ensures PlugsConnectedIn(init + [c]) == PlugsConnectedIn(init) + (if "plug" in c.onTarget then {c.plug.name} else {})
    ensures SlotsConnectedIn(init + [c]) == SlotsConnectedIn(init) + (if "slot" in c.onTarget then {c.slot.name} else {})
  {
    assert forall d :: d in init + [c] <==> d in init || d == c;
  }

  // --------------------------------------------------------- dangling plugs

  /** A plug that no connection in `connected` uses. */
  function Unconnected(connected: set<string>): PlugInfo -> bool
  {
    (pl: PlugInfo) => pl.name !in connected
  }

  function PlugName(pl: PlugInfo): string
  {
    pl.name
  }

  /**
    The names of the plugs in `plugs` that are not connected, in their order,
    repeats kept: the `k`th name is that of the `k`th unconnected plug.
  */
  function Dangling(plugs: seq<PlugInfo>, connected: set<string>): (names: seq<string>)
    ensures var idx := Seqs.Positions(plugs, Unconnected(connected));
      && |names| == |idx|
      && forall k :: 0 <= k < |idx| ==> names[k] == plugs[idx[k]].name
    ensures |names| <= |plugs|
    ensures forall n :: n in names <==> n !in connected && exists i :: 0 <= i < |plugs| && plugs[i].name == n
  {
    Seqs.MapFilterMembers(plugs, Unconnected(connected), PlugName);
    Seqs.MapFilter(plugs, Unconnected(connected), PlugName)
  }

  // ----------------------------------------------------------------- report

  /** The report, section by section. */
  datatype Printed = Printed(installing: seq<InstallBlock>, connections: seq<string>, dangling: seq<string>)

  /** A list the driver sent as `null` reads as empty. */
  function OrEmpty<T>(o: Option<seq<T>>): (r: seq<T>)
    ensures o.None? ==> r == []
    ensures o.Some? ==> r == o.value
  {
    if o.Some? then o.value else []
  }

  /** Every name in the print order has an entry exactly when every considered snap has one. */
  lemma InstallOrderCovered(context: seq<string>, target: string, index: map<string, InstallEntry>)
    ensures var order := InstallOrder(context, target);
      (forall i :: 0 <= i < |order| ==> order[i] in index) <==>
      (forall n :: n in context ==> n in index) && target in index
  {
    var order := InstallOrder(context, target);
    if forall i :: 0 <= i < |order| ==> order[i] in index {
      forall n | n in context
        ensures n in index
      {
        var i :| 0 <= i < |order| && order[i] == n;
      }
    }
  }

  /** When the install report stops, it names a considered snap that has no entry at all. */
  lemma MissingEntryNamed(context: seq<string>, target: string, entries: seq<InstallEntry>)
    requires InstallReport(InstallOrder(context, target), InstallIndex(entries)).Failure?
    ensures var e := InstallReport(InstallOrder(context, target), InstallIndex(entries)).error;
      && e.MissingInstallEntry?
      && (e.snap in context || e.snap == target)
      && forall i :: 0 <= i < |entries| ==> entries[i].snapName != e.snap
  {
    var order := InstallOrder(context, target);
    var index := InstallIndex(entries);
    var e := InstallReport(order, index).error;
    var k :| 0 <= k < |order| && e == MissingInstallEntry(order[k]) && order[k] !in index;
    InstallIndexLastWins(entries, order[k]);
  }

  /**
    The install section: every considered snap once, the target last, each
    with the outcome of its last install entry. It fails exactly when a
    considered snap has no entry, naming the first such snap in print order.
  */
  function InstallSection(target: string, context: seq<string>, entries: seq<InstallEntry>)
    : (r: Result<seq<InstallBlock>, ReportError>)
    ensures var index := InstallIndex(entries);
      r.Success? <==> (forall n :: n in context ==> n in index) && target in index
    ensures r.Failure? ==>
      && r.error.MissingInstallEntry?
      && (r.error.snap in context || r.error.snap == target)
      && forall i :: 0 <= i < |entries| ==> entries[i].snapName != r.error.snap
    ensures r.Failure? ==>
      var order := InstallOrder(context, target);
      exists k :: 0 <= k < |order| && r.error == MissingInstallEntry(order[k]) &&
        forall i :: 0 <= i < k ==> order[i] in InstallIndex(entries)
    ensures r.Success? ==>
      var order := InstallOrder(context, target);
      && |r.value| == |order|
      && forall i :: 0 <= i < |order| ==> r.value[i] == InstallBlockOf(order[i], InstallIndex(entries)[order[i]])
  {
    var index := InstallIndex(entries);
    var order := InstallOrder(context, target);
    InstallOrderCovered(context, target, index);
    var r := InstallReport(order, index);
    if r.Failure? then
      MissingEntryNamed(context, target, entries);
      r
    else r
  }

  /**
    The connection section: one line per reported connection in key order,
    and the target's plugs that some reported connection uses — which do not
    depend on the order the connections were reported in.
  */
  function ConnectionSection(conns: seq<Connection>): (out: Rendered)
    ensures |out.lines| == |conns|
    ensures forall i :: 0 <= i < |conns| ==> out.lines[i] == ConnLine(SortConnections(conns)[i])
    ensures out.connectedPlugs == PlugsConnectedIn(conns)
  {
    var sorted := SortConnections(conns);
    assert forall c :: c in sorted <==> c in conns by {
      assert forall c :: c in sorted <==> c in multiset(sorted);
    }
    assert PlugsConnectedIn(sorted) == PlugsConnectedIn(conns);
    RenderedConnected(sorted);
    RenderConnections(sorted)
  }

  /**
    The post-processing of `auto_connections_op`. It fails exactly when a
    snap considered has no install entry, and then names the first such snap
    in print order.
    Otherwise it lists every considered snap once, the target last, with
    the outcome of its last install entry; it prints one line per reported
    connection, in key order; and it lists the target's plugs that no
    reported connection uses — whatever order the driver reported the
    connections in. The unconnected plugs are listed in the driver's
    order, repeats kept.
  */
  function AutoConnectionsReport(target: string, context: seq<string>, out: EngineOutput)
    : (r: Result<Printed, ReportError>)
    ensures var index := InstallIndex(out.installing);
      r.Success? <==> (forall n :: n in context ==> n in index) && target in index
    ensures r.Failure? ==>
      && r.error.MissingInstallEntry?
      && (r.error.snap in context || r.error.snap == target)
      && forall i :: 0 <= i < |out.installing| ==> out.installing[i].snapName != r.error.snap
    ensures r.Failure? ==>
      var order := InstallOrder(context, target);
      exists k :: 0 <= k < |order| && r.error == MissingInstallEntry(order[k]) &&
        forall i :: 0 <= i < k ==> order[i] in InstallIndex(out.installing)
    ensures r.Success? ==>
      var order := InstallOrder(context, target);
      && |r.value.installing| == |order|
      && forall i :: 0 <= i < |order| ==>
           r.value.installing[i] == InstallBlockOf(order[i], InstallIndex(out.installing)[order[i]])
    ensures r.Success? ==>
      var conns := OrEmpty(out.connections);
      && |r.value.connections| == |conns|
      && forall i :: 0 <= i < |conns| ==> r.value.connections[i] == ConnLine(SortConnections(conns)[i])
    ensures r.Success? ==>
      var plugs := OrEmpty(out.plugs);
      var idx := Seqs.Positions(plugs, Unconnected(PlugsConnectedIn(OrEmpty(out.connections))));
      && |r.value.dangling| == |idx|
      && forall k :: 0 <= k < |idx| ==> r.value.dangling[k] == plugs[idx[k]].name
    ensures r.Success? ==>
      var plugs := OrEmpty(out.plugs);
      forall n :: n in r.value.dangling <==>
        && n !in PlugsConnectedIn(OrEmpty(out.connections))
        && exists i :: 0 <= i < |plugs| && plugs[i].name == n
  {
    var installing :- InstallSection(target, context, out.installing);
    var rendered := ConnectionSection(OrEmpty(out.connections));
    Success(Printed(installing, rendered.lines, Dangling(OrEmpty(out.plugs), rendered.connectedPlugs)))
  }

  /** A `null` connection list gives the same report as an empty one. */
  lemma NullConnectionsAsEmpty(target: string, context: seq<string>, out: EngineOutput)
    ensures AutoConnectionsReport(target, context, out.(connections := None))
         == AutoConnectionsReport(target, context, out.(connections := Some([])))
  {
  }

  /** A `null` plug list gives the same report as an empty one. */
  lemma NullPlugsAsEmpty(target: string, context: seq<string>, out: EngineOutput)
    ensures AutoConnectionsReport(target, context, out.(plugs := None))
         == AutoConnectionsReport(target, context, out.(plugs := Some([])))
  {
  }
}

=== FILE: seqs.dfy ===
/** Sequence utilities: first occurrences and duplicate removal. */
module Seqs {
  import opened Wrappers

  predicate NoDups<T(==)>(s: seq<T>)
  {
    forall i, j :: 0 <= i < j < |s| ==> s[i] != s[j]
  }

  /** Position of the first occurrence of `x` in `s`. */
  function FirstIndex<T(==)>(s: seq<T>, x: T): (i: nat)
    requires x in s
    ensures i < |s| && s[i] == x && x !in s[..i]
  {
    if s[0] == x then 0
    else
      var i := FirstIndex(s[1..], x);
      assert s[..i + 1] == [s[0]] + s[1..][..i];
      i + 1
  }

  /** An occurrence with no earlier occurrence is the first one. */
  lemma FirstIndexUnique<T>(s: seq<T>, x: T, i: nat)
    requires i < |s| && s[i] == x && x !in s[..i]
    ensures FirstIndex(s, x) == i
  {
  }

  /** Extending a sequence does not move first occurrences already in it. */
  lemma FirstIndexPrefix<T>(s: seq<T>, k: nat, x: T)
    requires k <= |s| && x in s[..k]
    ensures FirstIndex(s, x) == FirstIndex(s[..k], x)
  {
    var j := FirstIndex(s[..k], x);
    assert s[..k][..j] == s[..j];
    FirstIndexUnique(s, x, j);
  }

  /** The elements of `r` appear in the order of their first occurrences in `s`. */
  predicate InFirstOccurrenceOrder<T(==)>(r: seq<T>, s: seq<T>)
  {
    forall i, j :: 0 <= i < j < |r| ==> FirstsBefore(s, r[i], r[j])
  }

  /** `a` and `b` both occur in `s`, `a` first. */
  predicate FirstsBefore<T(==)>(s: seq<T>, a: T, b: T)
  {
    a in s && b in s && FirstIndex(s, a) < FirstIndex(s, b)
  }

  /**
    Keep the first occurrence of every element, dropping later ones: the
    "skip if already seen" loop of both the Go driver and the Python report.
    The result lists each element of `s` exactly once, ordered by where the
    element first occurs in `s`.
  */
  function Dedup<T(==, !new)>(s: seq<T>): (r: seq<T>)
    ensures NoDups(r)
    ensures forall x :: x in r <==> x in s
    decreases |s|
  {
    if |s| == 0 then []
    else
      var init := s[..|s| - 1];
      var d := Dedup(init);
      var x := s[|s| - 1];
      assert s == init + [x];
      if x in d then d else d + [x]
  }

  /** The deduplicated sequence lists elements by where they first occur. */
  lemma {:induction false} DedupOrder<T(!new)>(s: seq<T>)
    ensures InFirstOccurrenceOrder(Dedup(s), s)
    decreases |s|
  {
    if |s| > 0 {
      DedupOrder(s[..|s| - 1]);
      DedupStep(s, Dedup(s[..|s| - 1]));
    }
  }

  lemma DedupStep<T>(s: seq<T>, d: seq<T>)
    requires |s| > 0
    requires NoDups(d)
    requires forall x :: x in d <==> x in s[..|s| - 1]
    requires InFirstOccurrenceOrder(d, s[..|s| - 1])
    ensures var r := if s[|s| - 1] in d then d else d + [s[|s| - 1]];
      && NoDups(r)
      && (forall x :: x in r <==> x in s)
      && InFirstOccurrenceOrder(r, s)
  {
    var init := s[..|s| - 1];
    var x := s[|s| - 1];
    assert s == init + [x];
    forall y | y in d
      ensures FirstIndex(s, y) == FirstIndex(init, y)
    {
      FirstIndexPrefix(s, |s| - 1, y);
    }
    if x !in d {
      FirstIndexUnique(s, x, |s| - 1);
      var r := d + [x];
      forall i, j | 0 <= i < j < |r|
        ensures FirstsBefore(s, r[i], r[j])
      {
        assert r[i] == d[i] && d[i] in d;
        if j < |d| {
          assert r[j] == d[j] && d[j] in d;
          assert FirstIndex(init, d[i]) < FirstIndex(init, d[j]);
        } else {
          assert r[j] == x;
          assert FirstIndex(init, d[i]) < |init|;
        }
      }
    }
  }

  /** One more element of `s` either was seen already or is appended. */
  lemma DedupSnoc<T(!new)>(s: seq<T>, i: nat)
    requires i < |s|
    ensures Dedup(s[..i + 1]) == if s[i] in Dedup(s[..i]) then Dedup(s[..i]) else Dedup(s[..i]) + [s[i]]
  {
    assert s[..i + 1][..i] == s[..i];
  }

  /** A name not seen in a prefix is the next element of the deduplicated whole. */
  lemma DedupNext<T(!new)>(s: seq<T>, i: nat)
    requires i < |s| && s[i] !in Dedup(s[..i])
    ensures Dedup(s[..i]) + [s[i]] <= Dedup(s)
  {
    assert s[..i + 1][..i] == s[..i];
    assert Dedup(s[..i + 1]) == Dedup(s[..i]) + [s[i]];
    DedupPrefix(s, i + 1);
  }

  /** Removing duplicates from a prefix gives a prefix of the whole result. */
  lemma {:induction false} DedupPrefix<T(!new)>(s: seq<T>, k: nat)
    requires k <= |s|
    ensures Dedup(s[..k]) <= Dedup(s)
    decreases |s| - k
  {
    if k == |s| {
      assert s[..k] == s;
    } else {
      DedupPrefix(s, k + 1);
      assert s[..k + 1][..k] == s[..k];
    }
  }

  /** `s` without the occurrences of `x`, order kept. */
  function Without<T(==, !new)>(s: seq<T>, x: T): (r: seq<T>)
    ensures forall y :: y in r <==> y in s && y != x
    decreases |s|
  {
    if |s| == 0 then []
    else
      var rest := Without(s[..|s| - 1], x);
      assert s == s[..|s| - 1] + [s[|s| - 1]];
      if s[|s| - 1] == x then rest else rest + [s[|s| - 1]]
  }

  /** An element first occurring after all of `w` extends `w` in first-occurrence order. */
  lemma OrderSnoc<T>(w: seq<T>, y: T, s: seq<T>)
    requires InFirstOccurrenceOrder(w, s)
    requires forall k :: 0 <= k < |w| ==> FirstsBefore(s, w[k], y)
    ensures InFirstOccurrenceOrder(w + [y], s)
  {
    var r := w + [y];
    forall i, j | 0 <= i < j < |r|
      ensures FirstsBefore(s, r[i], r[j])
    {
      assert r[i] == w[i];
      if j < |w| {
        assert r[j] == w[j];
      }
    }
  }

  /** A prefix of a sequence in first-occurrence order is in that order too. */
  lemma OrderPrefix<T>(d: seq<T>, k: nat, s: seq<T>)
    requires k <= |d| && InFirstOccurrenceOrder(d, s)
    ensures InFirstOccurrenceOrder(d[..k], s)
  {
    var p := d[..k];
    assert |p| == k;
    forall i, j | 0 <= i < j < |p|
      ensures FirstsBefore(s, p[i], p[j])
    {
      assert p[i] == d[i] && p[j] == d[j];
    }
  }

  /** Dropping one value keeps the relative order of the rest. */
  lemma {:induction false} WithoutKeepsOrder<T(!new)>(d: seq<T>, x: T, s: seq<T>)
    requires InFirstOccurrenceOrder(d, s)
    ensures InFirstOccurrenceOrder(Without(d, x), s)
    decreases |d|
  {
    if |d| > 0 {
      var last := |d| - 1;
      var init := d[..last];
      var y := d[last];
      OrderPrefix(d, last, s);
      WithoutKeepsOrder(init, x, s);
      var w := Without(init, x);
      assert Without(d, x) == if y == x then w else w + [y];
      if y != x && |w| > 0 {
        forall k | 0 <= k < |w|
          ensures FirstsBefore(s, w[k], y)
        {
          assert w[k] in init;
          var a :| 0 <= a < last && init[a] == w[k];
          assert d[a] == w[k];
        }
        OrderSnoc(w, y, s);
      }
    }
  }

  /** Removing duplicates and dropping a value commute. */
  lemma {:induction false} DedupWithout<T(!new)>(s: seq<T>, x: T)
    ensures Dedup(Without(s, x)) == Without(Dedup(s), x)
    decreases |s|
  {
    if |s| > 0 {
      var init := s[..|s| - 1];
      var y := s[|s| - 1];
      DedupWithout(init, x);
      var w := Without(init, x);
      assert Without(s, x) == if y == x then w else w + [y];
      if y != x {
        assert (w + [y])[..|w|] == w;
      }
      var d := Dedup(init);
      assert Dedup(s) == if y in d then d else d + [y];
      if y !in d {
        assert (d + [y])[..|d|] == d;
      }
    }
  }

  /** Appending a new element to a sequence appends it to the deduplicated sequence. */
  lemma DedupAppendNew<T(!new)>(s: seq<T>, x: T)
    requires x !in s
    ensures Dedup(s + [x]) == Dedup(s) + [x]
  {
    assert (s + [x])[..|s|] == s;
  }

  /** `f` maps every element of `xs` successfully, to the element of `ys` at the same position. */
  ghost predicate MappedAll<T, U, E>(xs: seq<T>, ys: seq<U>, f: T -> Result<U, E>)
  {
    && |ys| == |xs|
    && forall k :: 0 <= k < |xs| ==> f(xs[k]).Success? && ys[k] == f(xs[k]).value
  }

  /** `e` is what `f` fails with on the `k`th element of `xs`, and `f` succeeds on all before it. */
  ghost predicate FirstFailureAt<T, U, E>(xs: seq<T>, f: T -> Result<U, E>, k: int, e: E)
  {
    && 0 <= k < |xs|
    && f(xs[k]).Failure? && f(xs[k]).error == e
    && forall j :: 0 <= j < k ==> f(xs[j]).Success?
  }

  /**
    Walk `s`, skip elements already seen, and apply `f` to each new one,
    stopping at the first failure. The outcome is that of applying `f` to the
    deduplicated sequence in order: it fails with the first failure there,
    and otherwise yields the value of every element.
  */
  method MapFirstOccurrences<T(==, !new), U, E>(s: seq<T>, f: T -> Result<U, E>) returns (r: Result<seq<U>, E>)
    ensures r.Success? <==> forall k :: 0 <= k < |Dedup(s)| ==> f(Dedup(s)[k]).Success?
    ensures r.Failure? ==> exists k :: FirstFailureAt(Dedup(s), f, k, r.error)
    ensures r.Success? ==> MappedAll(Dedup(s), r.value, f)
  {
    var seen: set<T> := {};
    var names: seq<T> := [];
    var values: seq<U> := [];
    var i := 0;
    while i < |s|
      invariant 0 <= i <= |s|
      invariant names == Dedup(s[..i])
      invariant forall x :: x in seen <==> x in names
      invariant MappedAll(names, values, f)
    {
      var x := s[i];
      DedupSnoc(s, i);
      if x !in seen {
        var y := f(x);
        if y.Failure? {
          FirstFailureNext(s, i, f);
          assert FirstFailureAt(Dedup(s), f, |names|, y.error);
          return Failure(y.error);
        }
        seen := seen + {x};
        values := values + [y.value];
        names := names + [x];
      }
      i := i + 1;
    }
    assert s[..i] == s;
    return Success(values);
  }

  /** A failure on a new element after a run of successes is the first failure of the whole. */
  lemma FirstFailureNext<T(!new), U, E>(s: seq<T>, i: nat, f: T -> Result<U, E>)
    requires i < |s| && s[i] !in Dedup(s[..i])
    requires f(s[i]).Failure?
    requires forall k :: 0 <= k < |Dedup(s[..i])| ==> f(Dedup(s[..i])[k]).Success?
    ensures FirstFailureAt(Dedup(s), f, |Dedup(s[..i])|, f(s[i]).error)
    ensures !forall k :: 0 <= k < |Dedup(s)| ==> f(Dedup(s)[k]).Success?
  {
    DedupNext(s, i);
    var k := |Dedup(s[..i])|;
    assert Dedup(s)[k] == s[i];
    assert forall j :: 0 <= j < k ==> Dedup(s)[j] == Dedup(s[..i])[j];
  }

  /**
    The positions in `s` of the elements satisfying `p`, ascending: the
    order in which a filtering loop over `s` meets them.
  */
  function Positions<T>(s: seq<T>, p: T -> bool): (idx: seq<nat>)
    ensures forall k :: 0 <= k < |idx| ==> idx[k] < |s| && p(s[idx[k]])
    ensures forall k, l :: 0 <= k < l < |idx| ==> idx[k] < idx[l]
    ensures forall i :: 0 <= i < |s| && p(s[i]) ==> i in idx
    decreases |s|
  {
    if |s| == 0 then []
    else
      var init := s[..|s| - 1];
      var prev := Positions(init, p);
      assert forall k :: 0 <= k < |prev| ==> s[prev[k]] == init[prev[k]];
      if p(s[|s| - 1]) then prev + [|s| - 1] else prev
  }

  /**
    `f` applied to the elements of `s` satisfying `p`, in their order in `s`:
    a loop that appends `f(x)` for every `x` it keeps.
  */
  function MapFilter<T, U>(s: seq<T>, p: T -> bool, f: T -> U): (r: seq<U>)
    ensures var idx := Positions(s, p);
      && |r| == |idx|
      && forall k :: 0 <= k < |idx| ==> r[k] == f(s[idx[k]])
    ensures |r| <= |s|
    decreases |s|
  {
    if |s| == 0 then []
    else
      var init := s[..|s| - 1];
      var x := s[|s| - 1];
      var prev := MapFilter(init, p, f);
      assert forall k :: 0 <= k < |Positions(init, p)| ==> s[Positions(init, p)[k]] == init[Positions(init, p)[k]];
      if p(x) then prev + [f(x)] else prev
  }

  /** The values of a filtered map are those of the kept elements. */
  lemma {:induction false} MapFilterMembers<T, U(!new)>(s: seq<T>, p: T -> bool, f: T -> U)
    ensures forall y :: y in MapFilter(s, p, f) <==> exists i :: 0 <= i < |s| && p(s[i]) && f(s[i]) == y
    decreases |s|
  {
    if |s| > 0 {
      var init := s[..|s| - 1];
      MapFilterMembers(init, p, f);
      assert forall i :: 0 <= i < |init| ==> init[i] == s[i];
    }
  }
}

=== FILE: simulation.dfy ===
/**
  The auto-connection simulation driver: it assembles a scenario (model and
  store assertions, one snap declaration per considered snap, the snaps
  registered with the interface repository), lets the interface manager run
  the target's auto-connect change, and prints the resulting connections.

  The policy checks, interface matching and task execution belong to snapd
  and are not part of this model: the finished change enters as an input.
*/
module Simulation {
  import opened Wrappers
  import opened Strings
  import Seqs
  import Sorting
  import opened AssertsMock

  /** The JSON parameters of the auto-connections operation; an absent `store` decodes as "". */
  datatype Params = Params(brand: string, model: string, store: string, targetSnap: string, snaps: seq<string>)

  /** Why the driver stops: each of these ends the process with a "simulation error". */
  datatype Fatal =
    | ManagerAlreadyInitialized
    | RefUnreadable(snap: string)
    | RulesUnreadable(snap: string, file: string, reason: string)
    | SnapYamlUnreadable(snap: string)
    | DeclarationLookupFailed(reason: string)
    | ChangeFailed(reason: string)

  /** The `.snap.json` reference record of a snap directory. */
  datatype SnapRef = SnapRef(snapName: string, snapId: string, publisherId: string)

  /** A `plugs.json` / `slots.json` file: absent, present but not loadable, or a decoded JSON object. */
  datatype RulesFile = Missing | Unreadable(reason: string) | Loaded(rules: map<string, Json>)

  /**
    What the driver reads from a snap's directory; `ref` is None when
    `.snap.json` cannot be read or decoded, `snapYaml` when `snap.yaml` cannot be read.
  */
  datatype SnapDir = SnapDir(ref: Option<SnapRef>, plugs: RulesFile, slots: RulesFile, snapYaml: Option<string>)

  /** The directory of a snap name that has none: no file can be read. */
  function DirOf(dirs: map<string, SnapDir>, name: string): SnapDir
  {
    if name in dirs then dirs[name] else SnapDir(None, Missing, Missing, None)
  }

  /** The authority of the mock store signing stack. */
  const StoreAuthority := "canonical"

  // ------------------------------------------------------- model and store

  /** The model headers: brand as authority and brand, the model name, and the store if one is given. */
  function ModelHeaders(p: Params): (h: Headers)
    ensures "authority-id" in h && h["authority-id"] == Text(p.brand)
    ensures "brand-id" in h && h["brand-id"] == Text(p.brand)
    ensures "model" in h && h["model"] == Text(p.model)
    ensures "store" in h <==> p.store != ""
    ensures "store" in h ==> h["store"] == Text(p.store)
    ensures h.Keys <= {"authority-id", "brand-id", "model", "store"}
  {
    var hdrs := map["authority-id" := Text(p.brand), "brand-id" := Text(p.brand), "model" := Text(p.model)];
    if p.store != "" then hdrs["store" := Text(p.store)] else hdrs
  }

  /** The store assertion, created exactly when a store is given. */
  function StoreAssertion(p: Params, now: string): (s: Option<Headers>)
    ensures s.Some? <==> p.store != ""
    ensures s.Some? ==> "store" in s.value && s.value["store"] == Text(p.store)
    ensures s.Some? ==> "operator-id" in s.value && s.value["operator-id"] == Text(StoreAuthority)
  {
    if p.store != "" then Some(StoreHeaders(p.store, StoreAuthority, now, map[])) else None
  }

  // ------------------------------------------------------- declarations

  /**
    The snaps whose declarations are mocked: `snaps` with the target appended,
    each name once, in order of first occurrence. The target is always one of them.
  */
  function ConsideredSnaps(p: Params): (r: seq<string>)
    ensures Seqs.NoDups(r)
    ensures p.targetSnap in r
    ensures forall n :: n in r <==> n in p.snaps || n == p.targetSnap
    ensures Seqs.InFirstOccurrenceOrder(r, p.snaps + [p.targetSnap])
  {
    Seqs.DedupOrder(p.snaps + [p.targetSnap]);
    Seqs.Dedup(p.snaps + [p.targetSnap])
  }

  /**
    The headers the driver hands to `mockSnapDecl` for snap `name`: name, id
    and publisher from the reference record, and `plugs` / `slots` exactly
    when that rules file exists. A missing reference record or a rules file
    that exists but cannot be loaded is fatal, checked in that order.
  */
  function DeclarationExtra(name: string, dir: SnapDir): (r: Result<Headers, Fatal>)
    ensures r.Failure? <==> dir.ref.None? || dir.plugs.Unreadable? || dir.slots.Unreadable?
    ensures dir.ref.None? ==> r == Failure(RefUnreadable(name))
    ensures dir.ref.Some? && dir.plugs.Unreadable? ==>
      r == Failure(RulesUnreadable(name, "plugs.json", dir.plugs.reason))
    ensures dir.ref.Some? && !dir.plugs.Unreadable? && dir.slots.Unreadable? ==>
      r == Failure(RulesUnreadable(name, "slots.json", dir.slots.reason))
    ensures r.Success? ==>
      var h := r.value;
      && "snap-name" in h && h["snap-name"] == Text(dir.ref.value.snapName)
      && "snap-id" in h && h["snap-id"] == Text(dir.ref.value.snapId)
      && "publisher-id" in h && h["publisher-id"] == Text(dir.ref.value.publisherId)
      && ("plugs" in h <==> dir.plugs.Loaded?)
      && (dir.plugs.Loaded? ==> h["plugs"] == Rules(dir.plugs.rules))
      && ("slots" in h <==> dir.slots.Loaded?)
      && (dir.slots.Loaded? ==> h["slots"] == Rules(dir.slots.rules))
      && h.Keys <= {"snap-name", "snap-id", "publisher-id", "plugs", "slots"}
  {
    if dir.ref.None? then Failure(RefUnreadable(name))
    else
      var ref := dir.ref.value;
      var d := map["snap-name" := Text(ref.snapName), "snap-id" := Text(ref.snapId),
                   "publisher-id" := Text(ref.publisherId)];
      if dir.plugs.Unreadable? then Failure(RulesUnreadable(name, "plugs.json", dir.plugs.reason))
      else
        var d := if dir.plugs.Loaded? then d["plugs" := Rules(dir.plugs.rules)] else d;
        if dir.slots.Unreadable? then Failure(RulesUnreadable(name, "slots.json", dir.slots.reason))
        else Success(if dir.slots.Loaded? then d["slots" := Rules(dir.slots.rules)] else d)
  }

  // ------------------------------------------------------- snap identity

  /** The part of a found snap declaration the driver reads back. */
  datatype Declaration = Declaration(snapName: string, snapId: string)

  /** The outcome of looking up declarations by snap name; a successful lookup finds at least one. */
  datatype Lookup = Found(first: Declaration, others: seq<Declaration>) | NotFound | LookupError(reason: string)

  /** The snap id a mocked snap gets, and the declaration it is installed with, if any. */
  datatype Identity = Identity(snapId: string, declaration: Option<Declaration>)

  /**
    `mockSnap`'s declaration lookup: not finding a declaration is not an
    error and leaves the snap without declaration or id; when found, the
    first declaration is used and gives the snap its id; any other lookup
    error is fatal.
  */
  function SnapIdentity(lookup: Lookup): (r: Result<Identity, Fatal>)
    ensures r.Failure? <==> lookup.LookupError?
    ensures r.Success? ==> (r.value.declaration.None? <==> lookup.NotFound?)
    ensures r.Success? && r.value.declaration.None? ==> r.value.snapId == ""
    ensures r.Success? && r.value.declaration.Some? ==>
      r.value.declaration.value == lookup.first && r.value.snapId == lookup.first.snapId
  {
    match lookup
    case Found(first, _) => Success(Identity(first.snapId, Some(first)))
    case NotFound => Success(Identity("", None))
    case LookupError(reason) => Failure(DeclarationLookupFailed(reason))
  }

  // ------------------------------------------------------- interface manager

  /** The part of the simulation state the manager guard looks at. */
  datatype Sim = Sim(managerReady: bool)

  /** Initialise the interface manager; doing it a second time is an internal error. */
  function Manager(s: Sim): (r: Result<Sim, Fatal>)
    ensures r.Success? <==> !s.managerReady
    ensures r.Success? ==> r.value.managerReady
    ensures r.Failure? ==> r.error == ManagerAlreadyInitialized
  {
    if s.managerReady then Failure(ManagerAlreadyInitialized) else Success(Sim(true))
  }

  /** Whatever the state, the manager can be initialised at most once. */
  lemma ManagerAtMostOnce(s: Sim)
    ensures Manager(s).Success? ==> Manager(Manager(s).value) == Failure(ManagerAlreadyInitialized)
  {
  }

  // ------------------------------------------------------- connections

  datatype PlugRef = PlugRef(snap: string, name: string)
  datatype SlotRef = SlotRef(snap: string, name: string)

  /** A task of the finished change, with the plug and slot a `connect` task carries. */
  datatype Task = Task(kind: string, plug: PlugRef, slot: SlotRef)

  /** How the auto-connect change ended. */
  datatype ChangeResult = ChangeError(reason: string) | ChangeDone(tasks: seq<Task>)

  /** snapd's text for a plug or slot reference: `snap:name`. */
  function RefText(snap: string, name: string): string
  {
    snap + ":" + name
  }

  /** The `slot > plug` line of a connect task. */
  function ConnectLine(t: Task): string
  {
    RefText(t.slot.snap, t.slot.name) + " > " + RefText(t.plug.snap, t.plug.name)
  }

  predicate IsConnect(t: Task)
  {
    t.kind == "connect"
  }

  /**
    One line per `connect` task, in task order; other tasks contribute
    nothing. The `k`th line is that of the `k`th connect task.
  */
  function ConnectLines(tasks: seq<Task>): (lines: seq<string>)
    ensures var idx := Seqs.Positions(tasks, IsConnect);
      && |lines| == |idx|
      && forall k :: 0 <= k < |idx| ==> lines[k] == ConnectLine(tasks[idx[k]])
    ensures |lines| <= |tasks|
    ensures forall l :: l in lines <==>
      exists i :: 0 <= i < |tasks| && tasks[i].kind == "connect" && ConnectLine(tasks[i]) == l
  {
    Seqs.MapFilterMembers(tasks, IsConnect, ConnectLine);
    Seqs.MapFilter(tasks, IsConnect, ConnectLine)
  }

  /** The printed connections: the connect lines, sorted ascending. */
  function PrintedConnections(tasks: seq<Task>): (out: seq<string>)
    ensures Sorting.SortedBy(out, StrLe)
    ensures multiset(out) == multiset(ConnectLines(tasks))
  {
    StrLeIsTotalPreorder();
    Sorting.SortBy(ConnectLines(tasks), StrLe)
  }

  /** Any ascending arrangement of the connect lines is the printed one. */
  lemma PrintedConnectionsDetermined(tasks: seq<Task>, out: seq<string>)
    requires Sorting.SortedBy(out, StrLe)
    requires multiset(out) == multiset(ConnectLines(tasks))
    ensures out == PrintedConnections(tasks)
  {
    SortedStringsUnique(out, PrintedConnections(tasks));
  }

  // ------------------------------------------------------- the whole run

  /** What one run produces besides its printed install checks. */
  datatype Outcome = Outcome(
    modelHeaders: Headers,
    storeHeaders: Option<Headers>,
    declarations: seq<Headers>,
    registered: set<string>,
    connections: seq<string>)

  predicate DeclarationsReadable(p: Params, dirs: map<string, SnapDir>)
  {
    forall n :: n in ConsideredSnaps(p) ==> DeclarationExtra(n, DirOf(dirs, n)).Success?
  }

  predicate MetadataReadable(p: Params, dirs: map<string, SnapDir>)
  {
    forall n :: n in ConsideredSnaps(p) ==> DirOf(dirs, n).snapYaml.Some?
  }

  /** The declaration mocked for the snap named `name`. */
  function DeclarationOf(name: string, dirs: map<string, SnapDir>, now: string, suggestFormat: Headers -> nat): Headers
    requires DeclarationExtra(name, DirOf(dirs, name)).Success?
  {
    DeclarationHeaders(DeclarationExtra(name, DirOf(dirs, name)).value, now, suggestFormat)
  }

  /** `e` is the error of the first considered snap whose declaration cannot be assembled. */
  predicate FirstDeclarationError(p: Params, dirs: map<string, SnapDir>, e: Fatal)
  {
    var considered := ConsideredSnaps(p);
    exists k :: 0 <= k < |considered|
      && DeclarationExtra(considered[k], DirOf(dirs, considered[k])) == Failure(e)
      && forall j :: 0 <= j < k ==> DeclarationExtra(considered[j], DirOf(dirs, considered[j])).Success?
  }

  /** The keys of a snap's extra headers: the reference fields, and a key per existing rules file. */
  lemma ExtraKeys(name: string, dir: SnapDir)
    requires DeclarationExtra(name, dir).Success?
    ensures DeclarationExtra(name, dir).value.Keys ==
      {"snap-name", "snap-id", "publisher-id"}
      + (if dir.plugs.Loaded? then {"plugs"} else {})
      + (if dir.slots.Loaded? then {"slots"} else {})
  {
  }

  /**
    `h` is a mock declaration for a snap directory `dir`: it carries the
    series, the time, a format, the name, id and publisher from the
    reference record, and the `plugs` / `slots` rules exactly when that file
    exists.
  */
  predicate MockDeclaration(h: Headers, dir: SnapDir, now: string)
  {
    && dir.ref.Some?
    && h.Keys == {"series", "timestamp", "format", "snap-name", "snap-id", "publisher-id"}
                 + (if dir.plugs.Loaded? then {"plugs"} else {})
                 + (if dir.slots.Loaded? then {"slots"} else {})
    && h["series"] == Text(Series)
    && h["timestamp"] == Text(now)
    && h["snap-name"] == Text(dir.ref.value.snapName)
    && h["snap-id"] == Text(dir.ref.value.snapId)
    && h["publisher-id"] == Text(dir.ref.value.publisherId)
    && (dir.plugs.Loaded? ==> h["plugs"] == Rules(dir.plugs.rules))
    && (dir.slots.Loaded? ==> h["slots"] == Rules(dir.slots.rules))
  }

  /** What a mock declaration over a snap's extra headers carries. */
  lemma DeclarationContents(name: string, dirs: map<string, SnapDir>, now: string, suggestFormat: Headers -> nat)
    requires DeclarationExtra(name, DirOf(dirs, name)).Success?
    ensures MockDeclaration(DeclarationOf(name, dirs, now, suggestFormat), DirOf(dirs, name), now)
  {
    DeclarationKeys(name, dirs, now, suggestFormat);
    DeclarationFields(name, dirs, now, suggestFormat);
    DeclarationRules(name, dirs, now, suggestFormat);
  }

  lemma DeclarationKeys(name: string, dirs: map<string, SnapDir>, now: string, suggestFormat: Headers -> nat)
    requires DeclarationExtra(name, DirOf(dirs, name)).Success?
    ensures var dir := DirOf(dirs, name);
      DeclarationOf(name, dirs, now, suggestFormat).Keys ==
        {"series", "timestamp", "format", "snap-name", "snap-id", "publisher-id"}
        + (if dir.plugs.Loaded? then {"plugs"} else {})
        + (if dir.slots.Loaded? then {"slots"} else {})
  {
    ExtraKeys(name, DirOf(dirs, name));
  }

  lemma DeclarationFields(name: string, dirs: map<string, SnapDir>, now: string, suggestFormat: Headers -> nat)
    requires DeclarationExtra(name, DirOf(dirs, name)).Success?
    ensures var dir, h := DirOf(dirs, name), DeclarationOf(name, dirs, now, suggestFormat);
      && h["series"] == Text(Series)
      && h["timestamp"] == Text(now)
      && h["snap-name"] == Text(dir.ref.value.snapName)
      && h["snap-id"] == Text(dir.ref.value.snapId)
      && h["publisher-id"] == Text(dir.ref.value.publisherId)
  {
    var extra := DeclarationExtra(name, DirOf(dirs, name)).value;
    assert "series" !in extra && "timestamp" !in extra;
  }

  lemma DeclarationRules(name: string, dirs: map<string, SnapDir>, now: string, suggestFormat: Headers -> nat)
    requires DeclarationExtra(name, DirOf(dirs, name)).Success?
    ensures var dir, h := DirOf(dirs, name), DeclarationOf(name, dirs, now, suggestFormat);
      && (dir.plugs.Loaded? ==> h["plugs"] == Rules(dir.plugs.rules))
      && (dir.slots.Loaded? ==> h["slots"] == Rules(dir.slots.rules))
  {
  }

  /**
    The declaration mocked for one considered snap, or why it cannot be. A
    declaration carries the series, the time, a format, the name, id and
    publisher from the snap's reference record, and the `plugs` / `slots`
    rules exactly when that file exists.
  */
  function DeclareOne(name: string, dirs: map<string, SnapDir>, now: string, suggestFormat: Headers -> nat)
    : (r: Result<Headers, Fatal>)
    ensures r.Success? <==> DeclarationExtra(name, DirOf(dirs, name)).Success?
    ensures r.Failure? ==> r == DeclarationExtra(name, DirOf(dirs, name))
    ensures r.Success? ==> r.value == DeclarationOf(name, dirs, now, suggestFormat)
    ensures r.Success? ==> MockDeclaration(r.value, DirOf(dirs, name), now)
  {
    var extra :- DeclarationExtra(name, DirOf(dirs, name));
    DeclarationContents(name, dirs, now, suggestFormat);
    Success(DeclarationHeaders(extra, now, suggestFormat))
  }

  /**
    The declaration loop: walk `snaps` with the target appended, skip names
    already seen, and mock one declaration per new name. It fails exactly
    when some considered snap's declaration cannot be assembled, reporting the
    first such snap; otherwise it yields one declaration per considered snap,
    in order.
  */
  method DeclareSnaps(p: Params, dirs: map<string, SnapDir>, now: string, suggestFormat: Headers -> nat)
    returns (r: Result<seq<Headers>, Fatal>)
    ensures r.Success? <==> DeclarationsReadable(p, dirs)
    ensures r.Failure? ==> FirstDeclarationError(p, dirs, r.error)
    ensures r.Success? ==>
      var considered := ConsideredSnaps(p);
      && |r.value| == |considered|
      && forall k :: 0 <= k < |considered| ==>
           r.value[k] == DeclarationOf(considered[k], dirs, now, suggestFormat)
  {
    var declare := name => DeclareOne(name, dirs, now, suggestFormat);
    r := Seqs.MapFirstOccurrences(p.snaps + [p.targetSnap], declare);
    var considered := ConsideredSnaps(p);
    if r.Failure? {
      ghost var k :| Seqs.FirstFailureAt(considered, declare, k, r.error);
      assert DeclarationExtra(considered[k], DirOf(dirs, considered[k])) == Failure(r.error);
    } else {
      assert forall n :: n in considered ==> DeclareOne(n, dirs, now, suggestFormat).Success? by {
        forall n | n in considered
          ensures DeclareOne(n, dirs, now, suggestFormat).Success?
        {
          var k :| 0 <= k < |considered| && considered[k] == n;
          assert declare(considered[k]).Success?;
        }
      }
    }
  }

  /**
    The registration pass over the seen names, in an unspecified order: it
    fails exactly when some name has no readable `snap.yaml`, and then names
    such a snap.
  */
  method RegisterSnaps(seen: set<string>, dirs: map<string, SnapDir>) returns (r: Result<set<string>, Fatal>)
    ensures r.Success? <==> forall n :: n in seen ==> DirOf(dirs, n).snapYaml.Some?
    ensures r.Success? ==> r.value == seen
    ensures r.Failure? ==> r.error.SnapYamlUnreadable? && r.error.snap in seen
    ensures r.Failure? ==> DirOf(dirs, r.error.snap).snapYaml.None?
  {
    var pending := seen;
    while pending != {}
      invariant pending <= seen
      invariant forall n :: n in seen && n !in pending ==> DirOf(dirs, n).snapYaml.Some?
      decreases pending
    {
      var name :| name in pending;
      if DirOf(dirs, name).snapYaml.None? {
        return Failure(SnapYamlUnreadable(name));
      }
      pending := pending - {name};
    }
    return Success(seen);
  }

  /**
    One auto-connections run, from the parameters, the snap directories and
    the way the auto-connect change ended. The run fails exactly when some
    considered snap's declaration or metadata cannot be read or the change
    failed, checked in that order; a declaration failure is that of the first
    considered snap whose declaration cannot be assembled. Otherwise every considered snap
    gets exactly one declaration, in order, every one is registered, and the
    connect lines come out sorted.
  */
  method SimulateAutoConnect(p: Params, dirs: map<string, SnapDir>, now: string,
                             suggestFormat: Headers -> nat, change: ChangeResult)
    returns (r: Result<Outcome, Fatal>)
    ensures r.Success? <==> DeclarationsReadable(p, dirs) && MetadataReadable(p, dirs) && change.ChangeDone?
    ensures !DeclarationsReadable(p, dirs) ==> r.Failure? && FirstDeclarationError(p, dirs, r.error)
    ensures DeclarationsReadable(p, dirs) && !MetadataReadable(p, dirs) ==>
      && r.Failure? && r.error.SnapYamlUnreadable? && r.error.snap in ConsideredSnaps(p)
      && DirOf(dirs, r.error.snap).snapYaml.None?
    ensures DeclarationsReadable(p, dirs) && MetadataReadable(p, dirs) && change.ChangeError? ==>
      r == Failure(ChangeFailed(change.reason))
    ensures r.Success? ==>
      var o := r.value;
      var considered := ConsideredSnaps(p);
      && o.modelHeaders == ModelHeaders(p)
      && (o.storeHeaders.Some? <==> p.store != "")
      && o.storeHeaders == StoreAssertion(p, now)
      && |o.declarations| == |considered|
      && (forall k :: 0 <= k < |considered| ==>
            o.declarations[k] == DeclarationOf(considered[k], dirs, now, suggestFormat))
      && (forall n :: n in o.registered <==> n in p.snaps || n == p.targetSnap)
      && o.connections == PrintedConnections(change.tasks)
  {
    var modelHdrs := ModelHeaders(p);
    var storeHdrs := StoreAssertion(p, now);
    var decls :- DeclareSnaps(p, dirs, now, suggestFormat);
    var considered := ConsideredSnaps(p);
    var registered :- RegisterSnaps((set n | n in considered), dirs);
    if change.ChangeError? {
      return Failure(ChangeFailed(change.reason));
    }
    return Success(Outcome(modelHdrs, storeHdrs, decls, registered, PrintedConnections(change.tasks)));
  }
}

=== FILE: snap_at_rev.dfy ===
/**
  The `<snap>[@<rev>]` command-line parameter type of ifacetool: a snap name,
  optionally pinned to a positive revision number after the last `@`.
*/
module SnapAtRev {
  import opened Wrappers
  import opened Strings

  /** `snap_at_rev(name, revision)`; the revision defaults to `None`. */
  datatype SnapAtRev = SnapAtRev(name: string, revision: Option<int>)

  /** What the parameter type is handed: raw text, or a value converted before. */
  datatype ParamValue = Text(text: string) | Converted(snap: SnapAtRev)

  /** The parameter failure: revision text `rev`, taken from `value`, is not a valid revision. */
  datatype ConvertError = InvalidRevision(rev: string, value: string)

  /** Where the revision part sits in `name@rev`. */
  lemma PinnedParts(value: string, name: string, rev: string)
    requires value == name + "@" + rev
    ensures |name| < |value| && value[|name| + 1..] == rev
    ensures value[|value| - |rev| - 1..] == "@" + rev
  {
  }

  /** Parse text: split at the last `@`, and accept only a positive integer after it. */
  function ConvertText(value: string): (r: Result<SnapAtRev, ConvertError>)
    ensures '@' !in value ==> r == Success(SnapAtRev(value, None))
    ensures '@' in value && r.Success? ==> r.value.revision.Some?
    ensures r.Success? && r.value.revision.Some? ==>
      var name := r.value.name;
      && r.value.revision.value > 0
      && |name| < |value|
      && value == name + "@" + value[|name| + 1..]
      && '@' !in value[|name| + 1..]
      && ParseInt(value[|name| + 1..]) == r.value.revision
    ensures r.Failure? ==>
      var rev := r.error.rev;
      && r.error.value == value
      && |rev| < |value|
      && value[|value| - |rev| - 1..] == "@" + rev
      && '@' !in rev
      && (ParseInt(rev).None? || ParseInt(rev).value <= 0)
  {
    var parts := RSplitOnce(value, '@');
    if |parts| == 1 then Success(SnapAtRev(value, None))
    else
      var name, rev := parts[0], parts[1];
      PinnedParts(value, name, rev);
      ConvertPinned(value, name, rev)
  }

  /** The revision check for `value`, already split into `name@rev`. */
  function ConvertPinned(value: string, name: string, rev: string): (r: Result<SnapAtRev, ConvertError>)
    ensures r.Success? <==> ParseInt(rev).Some? && ParseInt(rev).value > 0
    ensures r.Success? ==> r.value == SnapAtRev(name, ParseInt(rev))
    ensures r.Failure? ==> r.error == InvalidRevision(rev, value)
  {
    var revno := ParseInt(rev);
    if revno.Some? && revno.value > 0 then Success(SnapAtRev(name, revno))
    else Failure(InvalidRevision(rev, value))
  }

  /**
    Convert a parameter value. Text without `@` is a bare name. Otherwise the
    text is split at its last `@`; the part after it must be an integer
    greater than zero, and the part before it, which may itself contain `@`,
    is the name.
  */
  function Convert(v: ParamValue): (r: Result<SnapAtRev, ConvertError>)
    ensures v.Converted? ==> r == Success(v.snap)
    ensures v.Text? && '@' !in v.text ==> r == Success(SnapAtRev(v.text, None))
    ensures v.Text? && '@' in v.text && r.Success? ==> r.value.revision.Some?
    ensures v.Text? && r.Success? && r.value.revision.Some? ==>
      var name := r.value.name;
      && r.value.revision.value > 0
      && |name| < |v.text|
      && v.text == name + "@" + v.text[|name| + 1..]
      && '@' !in v.text[|name| + 1..]
      && ParseInt(v.text[|name| + 1..]) == r.value.revision
    ensures v.Text? && r.Failure? ==>
      var rev := r.error.rev;
      && r.error.value == v.text
      && |rev| < |v.text|
      && v.text[|v.text| - |rev| - 1..] == "@" + rev
      && '@' !in rev
      && (ParseInt(rev).None? || ParseInt(rev).value <= 0)
  {
    match v
    case Converted(snap) => Success(snap)
    case Text(value) => ConvertText(value)
  }

  /** Converting a result of conversion changes nothing. */
  lemma ConvertIdempotent(v: ParamValue)
    requires Convert(v).Success?
    ensures Convert(Converted(Convert(v).value)) == Convert(v)
  {
  }

  /** The `@` before an `@`-free revision part is the last one. */
  lemma LastAtOfPinned(name: string, rev: string)
    requires '@' !in rev
    ensures LastIndexOf(name + "@" + rev, '@') == Some(|name|)
  {
    var s := name + "@" + rev;
    assert s[|name|] == '@';
  }

  /**
    The split is at the last `@`: whatever `name` is, `@` signs included, the
    outcome depends only on the `@`-free text after the last `@`.
  */
  lemma SplitAtLastAt(name: string, rev: string)
    requires '@' !in rev
    ensures Convert(Text(name + "@" + rev)) ==
      match ParseInt(rev)
      case Some(n) =>
        if n > 0 then Success(SnapAtRev(name, Some(n)))
        else Failure(InvalidRevision(rev, name + "@" + rev))
      case None => Failure(InvalidRevision(rev, name + "@" + rev))
  {
    var s := name + "@" + rev;
    LastAtOfPinned(name, rev);
    assert s[..|name|] == name;
    assert s[|name| + 1..] == rev;
  }

  /**
    A name pinned to a positive revision in decimal converts back to both,
    as long as the revision is within `int()`'s digit limit.
  */
  lemma RoundTrip(name: string, n: int)
    requires n > 0 && |Decimal(n)| <= IntMaxStrDigits
    ensures Convert(Text(name + "@" + Decimal(n))) == Success(SnapAtRev(name, Some(n)))
  {
    assert forall i :: 0 <= i < |Decimal(n)| ==> Decimal(n)[i] != '@';
    SplitAtLastAt(name, Decimal(n));
    ParseDecimal(n);
  }

  /** A trailing `@` leaves an empty revision, which is refused. */
  lemma TrailingAtFails(name: string)
    ensures Convert(Text(name + "@")) == Failure(InvalidRevision("", name + "@"))
  {
    assert name + "@" == name + "@" + "";
    SplitAtLastAt(name, "");
  }

  /** A revision longer than `int()`'s digit limit is refused, even when it is all digits. */
  lemma TooLongRevisionFails(name: string, rev: string)
    requires AllDigits(rev) && |rev| > IntMaxStrDigits
    ensures Convert(Text(name + "@" + rev)) == Failure(InvalidRevision(rev, name + "@" + rev))
  {
    assert forall i :: 0 <= i < |rev| ==> rev[i] != '@' by {
      forall i | 0 <= i < |rev|
        ensures rev[i] != '@'
      {
        assert IsDigit(rev[i]);
      }
    }
    ParseIntTooLong(rev);
    SplitAtLastAt(name, rev);
  }

  /** A revision part without any digit, the empty one included, is refused. */
  lemma NonNumericRevisionFails(name: string, rev: string)
    requires forall i :: 0 <= i < |rev| ==> !IsDigit(rev[i]) && rev[i] != '@'
    ensures Convert(Text(name + "@" + rev)) == Failure(InvalidRevision(rev, name + "@" + rev))
  {
    assert '@' !in rev;
    ParseIntNeedsDigit(rev);
    SplitAtLastAt(name, rev);
  }

  /** Revision zero, however it is written, is refused. */
  lemma ZeroRevisionFails(name: string, zeros: nat)
    requires zeros > 0
    ensures Convert(Text(name + "@" + seq(zeros, _ => '0'))).Failure?
  {
    var rev := seq(zeros, _ => '0');
    ZerosValue(rev);
    assert rev[0] == '0' && '@' !in rev;
    assert ParseInt(rev) == if |rev| <= IntMaxStrDigits then Some(0) else None;
    SplitAtLastAt(name, rev);
  }

  lemma {:induction false} ZerosValue(s: string)
    requires forall i :: 0 <= i < |s| ==> s[i] == '0'
    ensures AllDigits(s) && DigitsValue(s) == 0
    decreases |s|
  {
    if |s| > 0 {
      ZerosValue(s[..|s| - 1]);
    }
  }
}

=== FILE: sorting.dfy ===
/**
  A stable sort by a comparison key. Go's `sort.Strings` and Python's
  `list.sort(key=...)` are both modelled by `SortBy`: the first with the
  string order as comparator, the second with the order of the key tuples.
  Python's sort is guaranteed stable; for the string order every tie is an
  equality, so stability costs nothing there.
*/
module Sorting {

  /** `le` compares every pair and chains: the "less or equal" of a sort key. */
  ghost predicate TotalPreorder<T(!new)>(le: (T, T) -> bool)
  {
    && (forall a, b :: le(a, b) || le(b, a))
    && (forall a, b, c :: le(a, b) && le(b, c) ==> le(a, c))
  }

  predicate SortedBy<T>(s: seq<T>, le: (T, T) -> bool)
  {
    forall i, j :: 0 <= i < j < |s| ==> le(s[i], s[j])
  }

  /** `a` and `b` have equal keys. */
  predicate Tie<T>(a: T, b: T, le: (T, T) -> bool)
  {
    le(a, b) && le(b, a)
  }

  /** The elements of `s` whose key equals that of `y`, in their order in `s`. */
  function Ties<T>(s: seq<T>, y: T, le: (T, T) -> bool): seq<T>
  {
    if |s| == 0 then []
    else (if Tie(s[0], y, le) then [s[0]] else []) + Ties(s[1..], y, le)
  }

  /** Insert `x` after every element whose key is not greater than its own. */
  function Insert<T>(x: T, s: seq<T>, le: (T, T) -> bool): seq<T>
  {
    if |s| == 0 then [x]
    else if le(s[0], x) then [s[0]] + Insert(x, s[1..], le)
    else [x] + s
  }

  /**
    Insertion sort, taking the elements left to right. The result is ordered,
    is a permutation of the input, and keeps elements with equal keys in their
    input order (stability).
  */
  function SortBy<T(!new)>(s: seq<T>, le: (T, T) -> bool): (r: seq<T>)
    requires TotalPreorder(le)
    ensures SortedBy(r, le)
    ensures multiset(r) == multiset(s)
    ensures forall y :: Ties(r, y, le) == Ties(s, y, le)
    decreases |s|
  {
    if |s| == 0 then []
    else
      var init := SortBy(s[..|s| - 1], le);
      SortStep(s, init, le);
      Insert(s[|s| - 1], init, le)
  }

  lemma SortStep<T(!new)>(s: seq<T>, init: seq<T>, le: (T, T) -> bool)
    requires TotalPreorder(le)
    requires |s| > 0
    requires SortedBy(init, le)
    requires multiset(init) == multiset(s[..|s| - 1])
    requires forall y :: Ties(init, y, le) == Ties(s[..|s| - 1], y, le)
    ensures SortedBy(Insert(s[|s| - 1], init, le), le)
    ensures multiset(Insert(s[|s| - 1], init, le)) == multiset(s)
    ensures forall y :: Ties(Insert(s[|s| - 1], init, le), y, le) == Ties(s, y, le)
  {
    var x := s[|s| - 1];
    assert s == s[..|s| - 1] + [x];
    InsertSorted(x, init, le);
    InsertContents(x, init, le);
    forall y
      ensures Ties(Insert(x, init, le), y, le) == Ties(s, y, le)
    {
      InsertTies(x, init, y, le);
      TiesAppend(s[..|s| - 1], [x], y, le);
    }
  }

  lemma {:induction false} InsertContents<T>(x: T, s: seq<T>, le: (T, T) -> bool)
    ensures multiset(Insert(x, s, le)) == multiset(s) + multiset{x}
    decreases |s|
  {
    if |s| > 0 {
      assert s == [s[0]] + s[1..];
      if le(s[0], x) {
        InsertContents(x, s[1..], le);
      }
    }
  }

  /** A lower bound of `x` and of every element of `s` bounds every element after inserting. */
  lemma InsertAbove<T>(lo: T, x: T, s: seq<T>, le: (T, T) -> bool)
    requires le(lo, x) && forall k :: 0 <= k < |s| ==> le(lo, s[k])
    ensures forall j :: 0 <= j < |Insert(x, s, le)| ==> le(lo, Insert(x, s, le)[j])
  {
    var r := Insert(x, s, le);
    InsertContents(x, s, le);
    forall j | 0 <= j < |r|
      ensures le(lo, r[j])
    {
      assert r[j] in multiset(s) + multiset{x};
    }
  }

  lemma {:induction false} InsertSorted<T(!new)>(x: T, s: seq<T>, le: (T, T) -> bool)
    requires TotalPreorder(le)
    requires SortedBy(s, le)
    ensures SortedBy(Insert(x, s, le), le)
    decreases |s|
  {
    if |s| == 0 {
    } else if le(s[0], x) {
      InsertSorted(x, s[1..], le);
      InsertAbove(s[0], x, s[1..], le);
    } else {
      assert le(x, s[0]);
      forall j | 0 <= j < |s|
        ensures le(x, s[j])
      {
        if j > 0 {
          assert le(s[0], s[j]);
        }
      }
    }
  }

  lemma {:induction false} TiesAppend<T>(a: seq<T>, b: seq<T>, y: T, le: (T, T) -> bool)
    ensures Ties(a + b, y, le) == Ties(a, y, le) + Ties(b, y, le)
    decreases |a|
  {
    if |a| > 0 {
      assert (a + b)[1..] == a[1..] + b;
      TiesAppend(a[1..], b, y, le);
    } else {
      assert a + b == b;
    }
  }

  lemma TiesCons<T>(a: T, t: seq<T>, y: T, le: (T, T) -> bool)
    ensures Ties([a] + t, y, le) == (if Tie(a, y, le) then [a] else []) + Ties(t, y, le)
  {
    assert ([a] + t)[1..] == t;
  }

  /** Inserting `x` appends it to the ties of `y` exactly when it ties with `y`. */
  lemma {:induction false} InsertTies<T(!new)>(x: T, s: seq<T>, y: T, le: (T, T) -> bool)
    requires TotalPreorder(le)
    requires SortedBy(s, le)
    ensures Ties(Insert(x, s, le), y, le) == Ties(s, y, le) + (if Tie(x, y, le) then [x] else [])
    decreases |s|
  {
    if |s| == 0 {
      TiesCons(x, [], y, le);
    } else if le(s[0], x) {
      InsertTies(x, s[1..], y, le);
      TiesCons(s[0], Insert(x, s[1..], le), y, le);
      TiesCons(s[0], s[1..], y, le);
      assert s == [s[0]] + s[1..];
    } else {
      TiesCons(x, s, y, le);
      if Tie(x, y, le) {
        NoTiesAbove(x, s, y, le);
      }
    }
  }

  /** In a sorted sequence that starts above `x`, nothing ties with `y`, a tie of `x`. */
  lemma {:induction false} NoTiesAbove<T(!new)>(x: T, s: seq<T>, y: T, le: (T, T) -> bool)
    requires TotalPreorder(le)
    requires SortedBy(s, le)
    requires |s| > 0 && !le(s[0], x)
    requires Tie(x, y, le)
    ensures Ties(s, y, le) == []
    decreases |s|
  {
    assert !Tie(s[0], y, le);
    if |s| > 1 {
      assert le(s[0], s[1]);
      NoTiesAbove(x, s[1..], y, le);
    }
  }
}

=== FILE: strings.dfy ===
/**
  Text as sequences of Unicode scalar values, and the handful of string
  operations the tool relies on: the order in which Go and Python compare
  strings, decimal digits, and splitting at a separator character.
*/
module Strings {
  import opened Wrappers
  import Sorting

  /**
    Lexicographic order by code point. Go compares strings by their UTF-8
    bytes and Python by code points; UTF-8 preserves code point order, so
    both agree with this order.
  */
  predicate StrLe(a: string, b: string)
  {
    if |a| == 0 then true
    else if |b| == 0 then false
    else if a[0] != b[0] then a[0] < b[0]
    else StrLe(a[1..], b[1..])
  }

  lemma {:induction false} StrLeTotal(a: string, b: string)
    ensures StrLe(a, b) || StrLe(b, a)
  {
    if |a| > 0 && |b| > 0 && a[0] == b[0] {
      StrLeTotal(a[1..], b[1..]);
    }
  }

  lemma {:induction false} StrLeAntisymmetric(a: string, b: string)
    requires StrLe(a, b) && StrLe(b, a)
    ensures a == b
  {
    if |a| > 0 && |b| > 0 {
      StrLeAntisymmetric(a[1..], b[1..]);
      assert a == [a[0]] + a[1..];
      assert b == [b[0]] + b[1..];
    }
  }

  lemma {:induction false} StrLeTransitive(a: string, b: string, c: string)
    requires StrLe(a, b) && StrLe(b, c)
    ensures StrLe(a, c)
  {
    if |a| > 0 && |b| > 0 && |c| > 0 && a[0] == b[0] && b[0] == c[0] {
      StrLeTransitive(a[1..], b[1..], c[1..]);
    }
  }

  /** The string order is a valid sort comparator. */
  lemma StrLeIsTotalPreorder()
    ensures Sorting.TotalPreorder(StrLe)
  {
    forall a, b
      ensures StrLe(a, b) || StrLe(b, a)
    {
      StrLeTotal(a, b);
    }
    forall a, b, c | StrLe(a, b) && StrLe(b, c)
      ensures StrLe(a, c)
    {
      StrLeTransitive(a, b, c);
    }
  }

  /** The head of a sorted sequence of strings is below every element. */
  lemma SortedHeadLe(a: seq<string>, x: string)
    requires Sorting.SortedBy(a, StrLe) && x in a
    ensures StrLe(a[0], x)
  {
    var j :| 0 <= j < |a| && a[j] == x;
    if j == 0 {
      StrLeTotal(x, x);
    }
  }

  /** Two sorted arrangements of the same strings start alike. */
  lemma SortedHeadsEqual(a: seq<string>, b: seq<string>)
    requires Sorting.SortedBy(a, StrLe) && Sorting.SortedBy(b, StrLe)
    requires multiset(a) == multiset(b) && |a| > 0 && |b| > 0
    ensures a[0] == b[0]
  {
    assert a[0] in multiset(b) && b[0] in multiset(a);
    SortedHeadLe(b, a[0]);
    SortedHeadLe(a, b[0]);
    StrLeAntisymmetric(a[0], b[0]);
  }

  lemma MultisetTail<T>(a: seq<T>)
    requires |a| > 0
    ensures multiset(a[1..]) == multiset(a) - multiset{a[0]}
  {
    assert a == [a[0]] + a[1..];
  }

  /** Strings have one ascending arrangement: sorting them is deterministic. */
  lemma {:induction false} SortedStringsUnique(a: seq<string>, b: seq<string>)
    requires Sorting.SortedBy(a, StrLe) && Sorting.SortedBy(b, StrLe)
    requires multiset(a) == multiset(b)
    ensures a == b
    decreases |a|
  {
    assert |a| == |multiset(a)| == |multiset(b)| == |b|;
    if |a| > 0 {
      SortedHeadsEqual(a, b);
      MultisetTail(a);
      MultisetTail(b);
      SortedStringsUnique(a[1..], b[1..]);
      assert a == [a[0]] + a[1..];
      assert b == [b[0]] + b[1..];
    }
  }

  // ---------------------------------------------------------------- digits

  predicate IsDigit(c: char)
  {
    '0' <= c <= '9'
  }

  predicate AllDigits(s: string)
  {
    forall i :: 0 <= i < |s| ==> IsDigit(s[i])
  }

  function DigitChar(d: nat): (c: char)
    requires d < 10
    ensures IsDigit(c) && c as int - '0' as int == d
  {
    ('0' as int + d) as char
  }

  /** The number an ASCII digit string denotes (leading zeros allowed). */
  function DigitsValue(s: string): nat
    requires AllDigits(s)
  {
    if |s| == 0 then 0
    else 10 * DigitsValue(s[..|s| - 1]) + (s[|s| - 1] as int - '0' as int)
  }

  /** Canonical decimal text of `n`, as Go's `strconv.Itoa` and Python's `str` write it. */
  function Decimal(n: nat): (s: string)
    ensures |s| > 0 && AllDigits(s)
    ensures s[0] == '0' <==> n == 0
  {
    if n < 10 then [DigitChar(n)] else Decimal(n / 10) + [DigitChar(n % 10)]
  }

  lemma {:induction false} DecimalValue(n: nat)
    ensures DigitsValue(Decimal(n)) == n
  {
    if n >= 10 {
      DecimalValue(n / 10);
      var s := Decimal(n);
      assert s[..|s| - 1] == Decimal(n / 10);
    }
  }

  /**
    The most digits Python's `int()` converts from text by default; longer
    text raises `ValueError`.
  */
  const IntMaxStrDigits := 4300

  /**
    The integers Python's `int()` accepts, restricted to an optional sign
    followed by one to `IntMaxStrDigits` ASCII digits.
  */
  function ParseInt(t: string): (r: Option<int>)
    ensures r.Some? ==> |t| > 0 && AllDigits(t[1..])
    ensures r.Some? && r.value > 0 ==> t[0] != '-'
  {
    if |t| > 0 && (t[0] == '+' || t[0] == '-') then
      var digits := t[1..];
      if 0 < |digits| <= IntMaxStrDigits && AllDigits(digits) then
        var magnitude: int := DigitsValue(digits);
        Some(if t[0] == '-' then -magnitude else magnitude)
      else None
    else if 0 < |t| <= IntMaxStrDigits && AllDigits(t) then
      Some(DigitsValue(t))
    else None
  }

  /** Decimal text within the digit limit parses back to its number. */
  lemma ParseDecimal(n: nat)
    requires |Decimal(n)| <= IntMaxStrDigits
    ensures ParseInt(Decimal(n)) == Some(n)
  {
    DecimalValue(n);
  }

  /** Digit text longer than the limit is refused, whatever number it spells. */
  lemma ParseIntTooLong(t: string)
    requires AllDigits(t) && |t| > IntMaxStrDigits
    ensures ParseInt(t) == None
  {
    assert IsDigit(t[0]);
  }

  /** Text without any digit is never a number, the empty text included. */
  lemma ParseIntNeedsDigit(t: string)
    requires forall i :: 0 <= i < |t| ==> !IsDigit(t[i])
    ensures ParseInt(t) == None
  {
    if |t| > 0 && (t[0] == '+' || t[0] == '-') && |t| > 1 {
      assert !IsDigit(t[1..][0]);
    }
  }

  // ------------------------------------------------------------- searching

  /** Position of the first `c` in `s`. */
  function IndexOf(s: string, c: char): (r: Option<nat>)
    ensures r.None? <==> c !in s
    ensures r.Some? ==> r.value < |s| && s[r.value] == c && c !in s[..r.value]
  {
    if |s| == 0 then None
    else if s[0] == c then Some(0)
    else match IndexOf(s[1..], c)
      case None => None
      case Some(i) =>
        assert s[..i + 1] == [s[0]] + s[1..][..i];
        Some(i + 1)
  }

  /** Position of the last `c` in `s`. */
  function LastIndexOf(s: string, c: char): (r: Option<nat>)
    ensures r.None? <==> c !in s
    ensures r.Some? ==> r.value < |s| && s[r.value] == c && c !in s[r.value + 1..]
  {
    if |s| == 0 then None
    else if s[|s| - 1] == c then Some(|s| - 1)
    else
      var r := LastIndexOf(s[..|s| - 1], c);
      assert s == s[..|s| - 1] + [s[|s| - 1]];
      if r.Some? then
        assert s[r.value + 1..] == s[..|s| - 1][r.value + 1..] + [s[|s| - 1]];
        r
      else r
  }

  /** The first `c` of a text is the one right after a `c`-free prefix. */
  lemma IndexOfAfter(a: string, c: char, b: string)
    requires c !in a
    ensures IndexOf(a + [c] + b, c) == Some(|a|)
  {
    var s := a + [c] + b;
    assert s[|a|] == c;
    assert s[..|a|] == a;
  }

  /** A text with one `sep` in it splits around that `sep` in only one way. */
  lemma SplitAtSepUnique(a: string, b: string, c: string, d: string, sep: char)
    requires sep !in a && sep !in c
    requires a + [sep] + b == c + [sep] + d
    ensures a == c && b == d
  {
    var s := a + [sep] + b;
    IndexOfAfter(a, sep, b);
    IndexOfAfter(c, sep, d);
    assert a == s[..|a|] && c == s[..|c|];
    assert b == s[|a| + 1..] && d == s[|c| + 1..];
  }

  function Count(s: string, c: char): nat
  {
    if |s| == 0 then 0 else (if s[0] == c then 1 else 0) + Count(s[1..], c)
  }

  lemma {:induction false} CountAppend(a: string, b: string, c: char)
    ensures Count(a + b, c) == Count(a, c) + Count(b, c)
    decreases |a|
  {
    if |a| > 0 {
      assert (a + b)[1..] == a[1..] + b;
      CountAppend(a[1..], b, c);
    } else {
      assert a + b == b;
    }
  }

  lemma {:induction false} CountAbsent(s: string, c: char)
    requires c !in s
    ensures Count(s, c) == 0
    decreases |s|
  {
    if |s| > 0 {
      CountAbsent(s[1..], c);
    }
  }

  /** A character occurs in a text exactly when it is counted there. */
  lemma {:induction false} CountPresent(s: string, c: char)
    ensures Count(s, c) > 0 <==> c in s
    decreases |s|
  {
    if |s| > 0 {
      CountPresent(s[1..], c);
      assert s == [s[0]] + s[1..];
    }
  }

  // ------------------------------------------------------------- splitting

  /** The pieces put back together with `sep` between consecutive pieces. */
  function Join(parts: seq<string>, sep: char): string
    requires |parts| > 0
  {
    if |parts| == 1 then parts[0] else parts[0] + [sep] + Join(parts[1..], sep)
  }

  function Min(a: nat, b: nat): nat
  {
    if a <= b then a else b
  }

  lemma JoinCons(p: string, rest: seq<string>, sep: char)
    requires |rest| > 0
    ensures Join([p] + rest, sep) == p + [sep] + Join(rest, sep)
  {
    assert ([p] + rest)[1..] == rest;
  }

  /** A text cut at one of its characters. */
  lemma CutAt(s: string, i: nat)
    requires i < |s|
    ensures s == s[..i] + [s[i]] + s[i + 1..]
  {
  }

  /** Counting a separator in a text whose first separator is at the cut. */
  lemma CountAfterFirst(a: string, sep: char, b: string)
    requires sep !in a
    ensures Count(a + [sep] + b, sep) == 1 + Count(b, sep)
  {
    CountAppend(a + [sep], b, sep);
    CountAppend(a, [sep], sep);
    CountAbsent(a, sep);
  }

  /**
    Python's `s.split(sep, maxsplit)` for a one-character separator: split at
    the first `maxsplit` occurrences of `sep`, left to right.
  */
  function SplitMax(s: string, sep: char, maxsplit: nat): (parts: seq<string>)
    ensures |parts| == Min(Count(s, sep), maxsplit) + 1
    ensures Join(parts, sep) == s
    ensures forall i :: 0 <= i < |parts| - 1 ==> sep !in parts[i]
    decreases |s|
  {
    if maxsplit == 0 then [s]
    else match IndexOf(s, sep)
      case None =>
        CountAbsent(s, sep);
        [s]
      case Some(i) =>
        var head, tail := s[..i], s[i + 1..];
        var rest := SplitMax(tail, sep, maxsplit - 1);
        CutAt(s, i);
        CountAfterFirst(head, sep, tail);
        JoinCons(head, rest, sep);
        [head] + rest
  }

  /**
    Python's `s.rsplit(sep, 1)`: one piece when `sep` does not occur, else the
    text before and after the last `sep`.
  */
  function RSplitOnce(s: string, sep: char): (parts: seq<string>)
    ensures |parts| == 1 || |parts| == 2
    ensures |parts| == 1 <==> sep !in s
    ensures Join(parts, sep) == s
    ensures |parts| == 2 ==> sep !in parts[1]
  {
    match LastIndexOf(s, sep)
    case None => [s]
    case Some(i) =>
      assert s == s[..i] + [sep] + s[i + 1..];
      [s[..i], s[i + 1..]]
  }
}

=== FILE: wrappers.dfy ===
/** Failure-compatible wrappers shared by every module of the model. */
module Wrappers {

  /** An optional value: Python's `None`, or a key absent from a Go map. */
  datatype Option<+T> = None | Some(value: T)

  /** The outcome of an operation that can fail with an error of type `E`. */
  datatype Result<+T, +E> = Success(value: T) | Failure(error: E) {

    predicate IsFailure() {
      Failure?
    }

    function PropagateFailure<U>(): Result<U, E>
      requires Failure?
    {
      Failure(error)
    }

    function Extract(): T
      requires Success?
    {
      value
    }
  }
}
